=== FILE: README.md ===
# Order snapshot pipeline — a Dafny model

Two reporting scripts, `Order_Analysis.py` (order monitoring) and
`Order_Not_Exported_Analysis.py` (orders not exported), run the same
record-processing stage before they draw any chart:

1. `setup_paths` reads the current snapshot `<prefix><dd-mm-yyyy>.csv` and scans
   the data folder. Every CSV whose file name carries one of the trend dates is
   read, and each of its rows is tagged with that date as `Extraction Date`.
2. The preprocessing function
   - parses `UPDATE DATE` from its first whitespace-separated token as
     `dd/mm/yyyy` and drops the rows that do not parse;
   - sorts by that date and keeps the last row of each `ORDER CODE`;
   - computes each order's age in days against the run date and labels it
     "Under N days" or "Over N days";
   - builds three grouped tables.

The model follows that stage step by step, with one module per step. The two
scripts are two instantiations of it:

| module | what it models |
|---|---|
| `Results` | `Option`, `Result` and the errors that abort a run |
| `Calendar` | proleptic Gregorian dates, day ordinals and day differences |
| `DateText` | strict `dd<sep>mm<sep>yyyy` parsing and `str.split()[0]` on Python whitespace |
| `FileNames` | `lower().endswith(".csv")` and `split("_")[-1].split('.')[0]` |
| `Records` | snapshot rows, directory entries, trend rows, parsed orders |
| `Snapshots` | `setup_paths`: current-file lookup, trend-date parsing, trend-file scan |
| `Cleaning` | update-date parsing, row drop, date sort, keep-last dedup |
| `Ageing` | order age and the binary age category |
| `Grouping` | `groupby(...).count()`, `groupby(...).nunique()`, allow-list filters |
| `OrderAnalysis` | prefix `Order_Monitoring_`, 30-day threshold, status tables and status allow-list |
| `NotExportedAnalysis` | prefix `Order_Not_Exported_`, 5-day threshold, per-country tables |

Grouped tables are maps from key tuples to positive counts, and `Get` reads a
missing group as 0.

The folder is a sequence of entries, each with a name and the rows of its file,
in listing order. The run date is a parameter. A run either yields the three
tables or the error that would abort it:
- the current snapshot is missing;
- a trend-date text is neither `dd-mm-yyyy` nor NaT-like;
- a `.csv` name has a date suffix that is neither `dd-mm-yyyy` nor NaT-like;
- grouping fails on the column-less trend frame left when no file is selected.

`pd.to_datetime(..., format="%d-%m-%Y")` has three outcomes, modelled by
`DateText.ToDatetime`:
- a date;
- NaT, for the empty text and for `NaT`, `nat`, `NAT`, `nan`, `NaN` and
  `NAN`, which pandas maps to NaT before it tries the format;
- an exception, for any other text, since `errors=` is not given.

A `.csv` name whose date suffix raises is therefore not skipped: it ends the run
(`Snapshots.LoadTrend`). A `.csv` name whose suffix reads as NaT, such as
`Order_Monitoring_.csv`, is skipped unless a trend text also reads as NaT. In
that case `NaT in specific_dates_dt` holds, and the file is read and tagged
NaT. The `groupby` of the trend table drops rows whose key holds NaT, so such
rows never reach g3.

When no file matches a trend date, the trend frame is the column-less
`pd.DataFrame()`, and its `groupby("COUNTRY")` raises a `KeyError`. In the
model this is `Combined.NoColumns` and `Err(MissingColumn("COUNTRY"))`
(`RunNeedsTrendFiles`).

pandas' `sort_values` is not stable, so rows of one order with equal dates may
reach `drop_duplicates` in any order. The model sorts with a stable insertion
sort. `Cleaning.AnySortedOrderDedups` shows that every date-sorted order meets
the same dedup contract. That contract names the latest date per code, but not
which of several rows with that date survives.

## Model

| member | source | states |
|---|---|---|
| Calendar.NextDay | Order_Analysis.py:68 | the next calendar day is a valid date strictly after the given one |
| Calendar.OrdinalOrder | Order_Analysis.py:68 | day ordinals number the calendar faithfully: one date precedes another exactly when its ordinal is smaller, and equal ordinals mean equal dates |
| Calendar.OrdinalNextDay | Order_Analysis.py:68 | consecutive calendar days, across month, year and leap-day boundaries, have consecutive ordinals |
| Calendar.DaysBetweenAddDays | Order_Analysis.py:68 | the day difference between the date n days after d and d is n, so `(later - earlier).days` counts calendar days |
| DateText.ParseDate | Order_Analysis.py:47 | a strict `%d-%m-%Y` / `%d/%m/%Y` parse succeeds only on two digits, separator, two digits, separator, four digits |
| DateText.ParseDateCanonical | Order_Analysis.py:60 | every accepted text is exactly the canonical text of the date it yields, so two different accepted texts never mean the same date |
| DateText.ParseFormat | Order_Analysis.py:47 | a date written as dd-mm-yyyy or dd/mm/yyyy is parsed back to the same date, including 29 February of leap years |
| DateText.ToDatetime | Order_Analysis.py:47 | `to_datetime` with the strict format gives NaT exactly on the empty and NaT-like texts, fails exactly on the other texts that do not parse, and otherwise gives a four-digit-year date from a text of the dd-mm-yyyy shape |
| DateText.ToDatetimeFormat | Order_Analysis.py:47 | a written date converts back to that date |
| DateText.ToDatetimeCanonical | Order_Analysis.py:47 | a text that converts to a date is exactly that date written out, so distinct texts give distinct dates |
| DateText.FormatDateChars | Order_Analysis.py:46 | a written date holds only digits and its separator, so it contains no `_`, `.` or whitespace |
| DateText.FirstToken | Order_Analysis.py:60 | `str.split()[0]` is a nonempty run of non-whitespace characters, when present |
| DateText.FirstTokenNone | Order_Analysis.py:60 | a cell has no first token exactly when it is empty or all whitespace, the cells that become missing values |
| DateText.FirstTokenOf | Order_Analysis.py:60 | leading whitespace is skipped and everything after the first whitespace following the token is ignored |
| DateText.UpdateDate | Order_Analysis.py:60 | an update date is only ever read from a cell that has a first token, and its year has four digits |
| DateText.UpdateDateOf | Order_Analysis.py:60 | a cell holding `dd/mm/yyyy`, optionally preceded by whitespace and followed by a time of day, yields that date |
| FileNames.Lower | Order_Analysis.py:45 | lower-casing keeps the length and folds each character on its own |
| FileNames.CsvNameCases | Order_Analysis.py:45 | a name passes the extension test exactly when it ends in a dot followed by c, s, v in any letter case |
| FileNames.CsvNameIsLowerSuffix | Order_Analysis.py:45 | the character-wise test agrees with "the lower-cased name ends in .csv" in both directions |
| FileNames.LastSegment | Order_Analysis.py:46 | `split("_")[-1]` is a suffix of the name with no `_`, preceded by `_` or the start of the name |
| FileNames.FirstSegment | Order_Analysis.py:46 | `split('.')[0]` is a prefix with no `.`, followed by `.` or the end of the text |
| FileNames.SnapshotNameRoundTrip | Order_Analysis.py:46 | the date suffix of `<prefix_>` + text + `.csv` is the text again when it holds no `_` or `.`, and the name is a CSV name |
| FileNames.SnapshotNameDate | Order_Analysis.py:46-47 | a snapshot named after a date carries exactly that date, not NaT, as its extraction date |
| FileNames.NaTSuffixName | Order_Analysis.py:46-47 | a CSV name whose date suffix is empty or NaT-like, such as `Order_Monitoring_.csv`, is dated NaT rather than refused |
| Grouping.CountBy | Order_Analysis.py:84 | `groupby(key).count()` has a group for exactly the keys that occur, and each group's count is its number of rows |
| Grouping.DistinctBy | Order_Analysis.py:73 | `nunique()` per group has the same groups as `count()`, and each group holds the number of distinct order codes among its rows |
| Grouping.DistinctBelowCount | Order_Analysis.py:73 | two rows of one group sharing an order code make the group's distinct count smaller than its row count, so `nunique()` differs from `count()` |
| Grouping.DistinctBound | Order_Analysis.py:73 | the distinct ids of a group are no more than its rows, and at least one when the group occurs |
| Grouping.DistinctIsCount | Order_Analysis.py:73 | on rows with unique ids, counting distinct ids per group is counting rows per group |
| Grouping.Restrict | Order_Analysis.py:74 | `isin` filtering keeps the count of each allowed group, removes every other group and adds none |
| Grouping.SplitCount | Order_Analysis.py:78 | when a coarse group's rows are exactly the rows of two fine groups, its count is the sum of theirs |
| Grouping.TotalCountBy | Order_Analysis.py:84 | the counts of `groupby(...).count()` sum to the number of rows |
| Grouping.Where | Order_Analysis.py:84 | filtering keeps exactly the rows that meet the condition, each as many times as it occurs, and drops every other row |
| Grouping.WhereConcat | Order_Analysis.py:84 | filtering a concatenation is the concatenation of the filtered parts, so kept rows stay in their order |
| Grouping.WhereSingle | Order_Analysis.py:84 | a single row is kept exactly when it meets the condition |
| Grouping.OccurrencesWhere | Order_Analysis.py:84 | filtering by a condition every row of a group meets leaves the group's count unchanged |
| Grouping.OccurrencesWhereNone | Order_Analysis.py:84 | filtering by a condition no row of a group meets removes the group |
| Snapshots.ReadFile | Order_Analysis.py:36 | the read fails exactly when no entry has the name, with that name as the error; otherwise it yields the rows of an entry with that name |
| Snapshots.ParseTrendDates | Order_Analysis.py:40 | trend dates convert exactly when every text is a date or NaT-like, pointwise in order, NaT-like texts giving NaT; otherwise the error names a text that does neither |
| Snapshots.Tag | Order_Analysis.py:50 | tagging pairs every row, in order, with the extraction date |
| Snapshots.LoadTrend | Order_Analysis.py:44-51 | the scan succeeds exactly when every `.csv` name has a suffix that is a date or NaT-like, and otherwise names a file whose suffix is neither |
| Snapshots.LoadTrendNoColumns | Order_Analysis.py:41-51 | the trend frame has no columns exactly when no listed file is selected |
| Snapshots.LoadTrendSize | Order_Analysis.py:48-51 | the trend frame has as many rows as the selected files together |
| Snapshots.LoadTrendSound | Order_Analysis.py:48-51 | every trend row is a row of a selected CSV file, tagged with that file's date, which is a trend date |
| Snapshots.LoadTrendComplete | Order_Analysis.py:48-51 | every row of every selected file is in the trend frame, tagged with its file's date |
| Snapshots.LoadTrendRows | Order_Analysis.py:48-51 | the trend frame holds each tagged row of the selected files exactly as often as those files hold it |
| Snapshots.NaTFileSkipped | Order_Analysis.py:47-48 | a CSV whose date suffix reads as NaT is neither read nor an error when no trend text is NaT-like |
| Snapshots.TrendRowsDated | Order_Analysis.py:48-50 | when no trend text is NaT-like, every trend row carries a date, so the NaT filter of the trend grouping removes nothing |
| Snapshots.SetupPaths | Order_Analysis.py:23-51 | the step succeeds exactly when `<prefix><date>.csv` is present, the trend texts convert and the scan succeeds; a missing current file is reported first, then a bad trend text, then a bad file name; the current rows are that file's and the trend frame is the scan for the converted dates |
| Cleaning.ParseUpdates | Order_Analysis.py:60-61 | an order survives exactly when some row parses to it, and the survivors are as many as the rows whose update date parses |
| Cleaning.ParseUpdatesPartition | Order_Analysis.py:61 | kept rows plus dropped rows are all the rows: only unparseable rows are dropped |
| Cleaning.ParseUpdatesCounts | Order_Analysis.py:60-61 | each parsed order appears as many times as there are rows that parse to it |
| Cleaning.SortByDate | Order_Analysis.py:62 | the sorted table is ordered by update date and is a permutation of its input |
| Cleaning.KeepLast | Order_Analysis.py:63 | keep-last dedup leaves each order code once, keeps every code, and keeps only input rows |
| Cleaning.KeepLastKeepsLatest | Order_Analysis.py:62-63 | on date-sorted rows, each row kept is dated no earlier than any row with its code |
| Cleaning.AnySortedOrderDedups | Order_Analysis.py:62-63 | keep-last after any date-sorted permutation, stable or not, meets the dedup contract |
| Cleaning.DropDuplicates | Order_Analysis.py:62-63 | sort and dedup give one latest row per code, no code lost, rows from the input, and as many rows as codes |
| Cleaning.UniqueCodesCount | Order_Analysis.py:63 | with codes unique, there are as many rows as codes |
| Cleaning.Clean | Order_Analysis.py:60-63 | the current orders are the dedup of the rows whose update date parses |
| Ageing.CategoryByCalendar | Order_Analysis.py:68-69 | an order is "Under N days" exactly when the run date is before the N-th day after its update date |
| Ageing.CategoryBoundary | Order_Analysis.py:69 | an age of exactly N days is "Over", and N-1 days is "Under" |
| OrderAnalysis.Preprocess | Order_Analysis.py:57-87 | the step fails exactly on a column-less trend frame, with the `COUNTRY` key error; g1 and g2 hold only allowed statuses with positive counts; g3 has a group per (country, status, date) of the dated trend rows, and every g3 key holds a date, never NaT |
| OrderAnalysis.FileNameRoundTrip | Order_Analysis.py:23 | `Order_Monitoring_<d>.csv` is a CSV name whose extracted date text is d, for d without `_` or `.` |
| OrderAnalysis.TrendSnapshotSelected | Order_Analysis.py:45-48 | the snapshot `Order_Monitoring_<dd-mm-yyyy>.csv` of a trend date is selected for the trend frame |
| OrderAnalysis.CurrentTablesCountOrders | Order_Analysis.py:73-79 | g1 and g2 equal the row counts of the deduplicated orders, filtered to the allowed statuses |
| OrderAnalysis.G1CountsOrders | Order_Analysis.py:72-74 | g1 for (country, status) is the number of current orders in that group when the status is allowed, else 0 |
| OrderAnalysis.G2SumsToG1 | Order_Analysis.py:77-79 | the Under and Over counts of g2 for (country, status) add up to g1's count |
| OrderAnalysis.G3TotalIsTrendRows | Order_Analysis.py:84 | g3 counts every dated trend row once, without dedup: a group with a date holds its number of trend rows, a NaT group is absent, and the total is the number of dated trend rows |
| OrderAnalysis.AgeCategoryThreshold | Order_Analysis.py:69 | "Under 30 days" exactly when the age is below 30; 30 days is "Over" and 29 is "Under"; the label texts |
| OrderAnalysis.RunNeedsTrendFiles | Order_Analysis.py:84 | with the files present and no trend file selected, the run ends in the `COUNTRY` key error |
| OrderAnalysis.RunYieldsTables | Order_Analysis.py:23-84 | with the current file present, the trend texts converted, the scan successful and some trend file selected, the run yields the preprocessed tables, and g3 then totals the rows of the selected files when no trend text is NaT-like |
| OrderAnalysis.LatestUpdateWins | Order_Analysis.py:60-63 | two rows of one order, dated 01/03/2024 and "05/03/2024 10:15", leave one order, dated 5 March 2024 |
| NotExportedAnalysis.Preprocess | Order_Not_Exported_Analysis.py:57-89 | the step fails exactly on a column-less trend frame; g1 has a group per country of the current orders, unfiltered; g2 counts are positive; g3 has a group per (country, date) of the dated trend rows, and every g3 key holds a date |
| NotExportedAnalysis.FileNameRoundTrip | Order_Not_Exported_Analysis.py:23 | `Order_Not_Exported_<d>.csv` is a CSV name whose extracted date text is d |
| NotExportedAnalysis.TrendSnapshotSelected | Order_Not_Exported_Analysis.py:45-48 | the snapshot `Order_Not_Exported_<dd-mm-yyyy>.csv` of a trend date is selected for the trend frame |
| NotExportedAnalysis.CurrentTablesCountOrders | Order_Not_Exported_Analysis.py:77-81 | g1 and g2 equal the row counts of the deduplicated orders per country and per (country, category) |
| NotExportedAnalysis.G1TotalIsOrders | Order_Not_Exported_Analysis.py:77 | g1's counts sum to the number of distinct order codes among the rows whose update date parsed |
| NotExportedAnalysis.G2SumsToG1 | Order_Not_Exported_Analysis.py:81 | the Under and Over counts of g2 for a country add up to g1's count |
| NotExportedAnalysis.G3TotalIsTrendRows | Order_Not_Exported_Analysis.py:86 | g3 counts every dated trend row once: a group with a date holds its number of trend rows, a NaT group is absent, and the total is the number of dated trend rows |
| NotExportedAnalysis.AgeCategoryThreshold | Order_Not_Exported_Analysis.py:72 | "Under 5 days" exactly when the age is below 5; 5 days is "Over" and 4 is "Under"; the label texts |
| NotExportedAnalysis.RunNeedsTrendFiles | Order_Not_Exported_Analysis.py:86 | with the files present and no trend file selected, the run ends in the `COUNTRY` key error |
| NotExportedAnalysis.RunYieldsTables | Order_Not_Exported_Analysis.py:23-86 | with the current file present, the trend texts converted, the scan successful and some trend file selected, the run yields the preprocessed tables, and g3 then totals the rows of the selected files when no trend text is NaT-like |

## Left out

- File I/O: the folder is an input, so `os.listdir`, `pd.read_csv` and `os.path.join` are not modelled, and neither is creating the output folder with `os.makedirs`. CSV parsing is not modelled either; a file is given as its rows.
- `datetime.now()`: the run date is a parameter of `Preprocess` and `Run`.
- All chart functions (`visualize_*`), percentage titles (floating-point division), `print` progress output and the warnings filter: they render or log and compute nothing the tables depend on.
- pandas `Timestamp` bounds (years 1677–2262): dates with four-digit years 1–9999 are accepted.
- DateText.ParseDate: reads ASCII digits `0`–`9` only and the two-digit day and month. Python's `strptime` patterns, which pandas reuses, are laxer. `%d` also accepts a single digit (`8`) and a space-padded day (` 8`), and `%m` a single digit. `\d`, in `%Y` and in the second digit of `%d`, matches any Unicode decimal digit, so `08-03-２０２４` and `1٥-03-2024` are dates there and not here. On texts with two-digit ASCII fields, the form `FormatDate` writes, both read the same date.
- DateText.ToDatetime: inherits the `DateText.ParseDate` gap. A trend text or file-name suffix that only the laxer forms accept is an error in the model, where pandas gives a date.
- DateText.UpdateDate: inherits the `DateText.ParseDate` gap. An update date that only the laxer forms accept, such as `1٥/03/2024`, is dropped in the model and kept by pandas.
- NaN cells in `ORDER CODE`, `COUNTRY` or the status column, and dtype coercion: every cell is text. A missing `UPDATE DATE` is modelled as an empty cell, which has no token and is dropped.
- The not-exported script never reads the status column; its rows carry a status field that nothing uses.
- Case folding beyond ASCII in `str.lower()`: only ASCII letters can turn a name into one ending in `.csv`, so the extension test is exact.
- Columns the core does not read, and the `ORDER AGE` and `AGE CATEGORY` columns as stored columns: age and category are computed per order where the tables need them.
- Row order of the grouped tables (`reset_index` order): tables are maps.
- Cleaning.Clean: pandas' default sort is not stable, so among rows of one code that share the latest date, it may keep another row than the model's stable sort does. That row may have a different country or status. The dedup contract (`IsDedup`) holds for every such choice, but g1 and g2 are stated for the row the model keeps, one admissible survivor.

=== FILE: ageing.dfy ===
/** Order age and the binary age category of both scripts, which differ only
    in the threshold. */
module Ageing {
  import opened Calendar
  import opened DateText

  datatype AgeCategory = Under | Over

  /** `(current_date.date() - update_date).days`: negative for an update date
      after the run date. */
  function OrderAge(today: CalendarDate, updated: CalendarDate): int {
    DaysBetween(today, updated)
  }

  /** `'Under N days' if age < N else 'Over N days'` */
  function Categorize(threshold: nat, age: int): AgeCategory {
    if age < threshold then Under else Over
  }

  function Category(threshold: nat, today: CalendarDate, updated: CalendarDate): AgeCategory {
    Categorize(threshold, OrderAge(today, updated))
  }

  /** The decimal text of n. */
  function Decimal(n: nat): string {
    if n < 10 then [Digit(n)] else Decimal(n / 10) + [Digit(n % 10)]
  }

  /** The `AGE CATEGORY` text of a category. */
  function Label(c: AgeCategory, threshold: nat): string {
    (if c == Under then "Under " else "Over ") + Decimal(threshold) + " days"
  }

  /** An order is "Under N days" exactly when the run date falls before the
      N-th calendar day after its update date. */
  lemma CategoryByCalendar(threshold: nat, today: CalendarDate, updated: CalendarDate)
    ensures Category(threshold, today, updated) == Under <==> Before(today, AddDays(updated, threshold))
  {
    DaysBetweenAddDays(updated, threshold);
    OrdinalOrder(today, AddDays(updated, threshold));
  }

  /** An age of exactly N days is "Over N days"; one day less is "Under". */
  lemma CategoryBoundary(threshold: nat, updated: CalendarDate)
    ensures Category(threshold, AddDays(updated, threshold), updated) == Over
    ensures threshold > 0 ==> Category(threshold, AddDays(updated, threshold - 1), updated) == Under
  {
    DaysBetweenAddDays(updated, threshold);
    if threshold > 0 {
      DaysBetweenAddDays(updated, threshold - 1);
    }
  }
}

=== FILE: calendar.dfy ===
/** The proleptic Gregorian calendar as Python's `datetime.date` uses it:
    validity of a (day, month, year) triple, day ordinals, and the difference in
    whole days that `(a - b).days` computes. */
module Calendar {

  datatype Date = Date(day: int, month: int, year: int)

  predicate IsLeap(y: int) {
    y % 4 == 0 && (y % 100 != 0 || y % 400 == 0)
  }

  function DaysInMonth(m: int, y: int): int {
    if m == 2 then (if IsLeap(y) then 29 else 28)
    else if m == 4 || m == 6 || m == 9 || m == 11 then 30
    else 31
  }

  function YearLength(y: int): int {
    if IsLeap(y) then 366 else 365
  }

  /** A date `datetime.date` accepts: year from 1, month 1..12, day within the month. */
  predicate Valid(d: Date) {
    1 <= d.year && 1 <= d.month <= 12 && 1 <= d.day <= DaysInMonth(d.month, d.year)
  }

  type CalendarDate = d: Date | Valid(d) witness Date(1, 1, 1)

  /** Lexicographic (year, month, day) order: the order pandas compares timestamps in. */
  predicate Before(a: Date, b: Date) {
    a.year < b.year
    || (a.year == b.year && a.month < b.month)
    || (a.year == b.year && a.month == b.month && a.day < b.day)
  }

  /** Days in the years 1 .. y-1. */
  function DaysBeforeYear(y: int): int
    requires 1 <= y
  {
    var p := y - 1;
    365 * p + p / 4 - p / 100 + p / 400
  }

  /** Days in the months 1 .. m-1 of year y. */
  function DaysBeforeMonth(m: int, y: int): nat
    requires 1 <= m <= 13
  {
    if m == 1 then 0 else DaysBeforeMonth(m - 1, y) + DaysInMonth(m - 1, y)
  }

  /** The day number of `date.toordinal()`: 1 January of year 1 is day 1. */
  function Ordinal(d: CalendarDate): int {
    DaysBeforeYear(d.year) + DaysBeforeMonth(d.month, d.year) + d.day
  }

  /** The whole number of days from `earlier` to `later`, negative when
      `later` is in fact the earlier date. */
  function DaysBetween(later: CalendarDate, earlier: CalendarDate): int {
    Ordinal(later) - Ordinal(earlier)
  }

  /** The calendar successor of a date, by the month and leap-year rules. */
  function NextDay(d: CalendarDate): (r: CalendarDate)
    ensures Before(d, r)
  {
    if d.day < DaysInMonth(d.month, d.year) then Date(d.day + 1, d.month, d.year)
    else if d.month < 12 then Date(1, d.month + 1, d.year)
    else Date(1, 1, d.year + 1)
  }

  /** The date n days after d. */
  function AddDays(d: CalendarDate, n: nat): CalendarDate {
    if n == 0 then d else NextDay(AddDays(d, n - 1))
  }

  lemma YearStep(y: int)
    requires 1 <= y
    ensures DaysBeforeYear(y + 1) == DaysBeforeYear(y) + YearLength(y)
  {
    var p := y - 1;
    DivStep(p, 4);
    DivStep(p, 100);
    DivStep(p, 400);
    MultipleOf(y, 100, 4);
    MultipleOf(y, 400, 100);
    assert DaysBeforeYear(y + 1) - DaysBeforeYear(y)
      == 365 + (y / 4 - p / 4) - (y / 100 - p / 100) + (y / 400 - p / 400);
  }

  /** Counting multiples of q up to p + 1 adds one exactly when p + 1 is one. */
  lemma DivStep(p: nat, q: int)
    requires q > 0
    ensures (p + 1) / q == p / q + (if (p + 1) % q == 0 then 1 else 0)
  {
    var a, b := p / q, p % q;
    assert p == q * a + b && 0 <= b < q;
    if b == q - 1 {
      assert p + 1 == q * (a + 1) + 0;
      DivUnique(p + 1, q, a + 1, 0);
    } else {
      DivUnique(p + 1, q, a, b + 1);
    }
  }

  /** A multiple of q is a multiple of every divisor of q. */
  lemma MultipleOf(y: int, q: int, r: int)
    requires r > 0 && q > 0 && q % r == 0
    ensures y % q == 0 ==> y % r == 0
  {
    if y % q == 0 {
      var k := y / q;
      var j := q / r;
      assert y == q * k && q == r * j;
      assert y == r * (j * k);
      DivUnique(y, r, j * k, 0);
    }
  }

  /** Euclidean division is determined by its quotient and remainder. */
  lemma DivUnique(n: int, q: int, a: int, b: int)
    requires q > 0 && n == q * a + b && 0 <= b < q
    ensures n / q == a && n % q == b
  {
    var a', b' := n / q, n % q;
    assert n == q * a' + b' && 0 <= b' < q;
    assert q * (a - a') == b' - b;
    MulAwayFromZero(q, a - a');
  }

  /** A nonzero multiple of q is at least q away from zero. */
  lemma MulAwayFromZero(q: int, d: int)
    requires q > 0
    ensures d != 0 ==> q * d >= q || q * d <= -q
  {
    if d >= 1 {
      assert q * d == q + q * (d - 1);
    } else if d <= -1 {
      assert q * d == -q - q * (-d - 1);
    }
  }

  lemma MonthsFillYear(y: int)
    ensures DaysBeforeMonth(13, y) == YearLength(y)
  {
    var feb := DaysInMonth(2, y);
    assert DaysBeforeMonth(2, y) == 31;
    assert DaysBeforeMonth(3, y) == 31 + feb;
    assert DaysBeforeMonth(4, y) == 62 + feb;
    assert DaysBeforeMonth(5, y) == 92 + feb;
    assert DaysBeforeMonth(6, y) == 123 + feb;
    assert DaysBeforeMonth(7, y) == 153 + feb;
    assert DaysBeforeMonth(8, y) == 184 + feb;
    assert DaysBeforeMonth(9, y) == 215 + feb;
    assert DaysBeforeMonth(10, y) == 245 + feb;
    assert DaysBeforeMonth(11, y) == 276 + feb;
    assert DaysBeforeMonth(12, y) == 306 + feb;
  }

  lemma {:induction false} DaysBeforeYearGrows(y1: int, y2: int)
    requires 1 <= y1 < y2
    ensures DaysBeforeYear(y1) + YearLength(y1) <= DaysBeforeYear(y2)
    decreases y2 - y1
  {
    YearStep(y1);
    if y1 + 1 < y2 {
      DaysBeforeYearGrows(y1 + 1, y2);
    }
  }

  lemma {:induction false} DaysBeforeMonthGrows(m1: int, m2: int, y: int)
    requires 1 <= m1 < m2 <= 13
    ensures DaysBeforeMonth(m1, y) + DaysInMonth(m1, y) <= DaysBeforeMonth(m2, y)
    decreases m2 - m1
  {
    if m1 + 1 < m2 {
      DaysBeforeMonthGrows(m1 + 1, m2, y);
    }
  }

  /** The ordinal is a faithful numbering of the calendar: it is strictly
      increasing in calendar order, so it compares and identifies dates. */
  lemma OrdinalOrder(a: CalendarDate, b: CalendarDate)
    ensures Before(a, b) <==> Ordinal(a) < Ordinal(b)
    ensures a == b <==> Ordinal(a) == Ordinal(b)
  {
    OrdinalBefore(a, b);
    OrdinalBefore(b, a);
  }

  lemma OrdinalBefore(a: CalendarDate, b: CalendarDate)
    ensures Before(a, b) ==> Ordinal(a) < Ordinal(b)
  {
    if a.year < b.year {
      DaysBeforeMonthGrows(a.month, 13, a.year);
      MonthsFillYear(a.year);
      DaysBeforeYearGrows(a.year, b.year);
    } else if a.year == b.year && a.month < b.month {
      DaysBeforeMonthGrows(a.month, b.month, a.year);
    }
  }

  /** Consecutive calendar days have consecutive ordinals. */
  lemma OrdinalNextDay(d: CalendarDate)
    ensures Ordinal(NextDay(d)) == Ordinal(d) + 1
  {
    if d.day == DaysInMonth(d.month, d.year) && d.month == 12 {
      MonthsFillYear(d.year);
      YearStep(d.year);
    }
  }

  /** `DaysBetween` counts calendar days: the date n days after d is n days from d. */
  lemma {:induction false} DaysBetweenAddDays(d: CalendarDate, n: nat)
    ensures DaysBetween(AddDays(d, n), d) == n
  {
    if n > 0 {
      DaysBetweenAddDays(d, n - 1);
      OrdinalNextDay(AddDays(d, n - 1));
    }
  }
}

=== FILE: cleaning.dfy ===
/** The first preprocessing steps on the current snapshot: `UPDATE DATE` is
    parsed with `errors='coerce'` and the rows that fail are dropped; the rest
    are sorted by date and `drop_duplicates(subset='ORDER CODE', keep='last')`
    keeps one row per order code. */
module Cleaning {
  import opened Results
  import opened Calendar
  import opened DateText
  import opened Records
  import opened Grouping

  /** A row as an order, or None when its update date is NaT. */
  function ParseRow(row: Row): Option<Order> {
    match UpdateDate(row.updateDate)
    case None => None
    case Some(d) => Some(Order(row.orderCode, row.country, row.status, d))
  }

  predicate Parses(row: Row) {
    UpdateDate(row.updateDate).Some?
  }

  /** Parsing followed by `dropna(subset=['UPDATE DATE'])`, in row order. */
  function ParseUpdates(rows: seq<Row>): (r: seq<Order>)
    ensures forall o :: o in r <==> exists row :: row in rows && ParseRow(row) == Some(o)
    ensures |r| == Occurrences(rows, Parses, true)
  {
    if rows == [] then []
    else
      var init := rows[..|rows| - 1];
      var last := rows[|rows| - 1];
      assert rows == init + [last];
      var kept := ParseUpdates(init);
      match ParseRow(last)
      case None => kept
      case Some(o) => kept + [o]
  }

  /** Every row whose update date does not parse is dropped, and only those:
      kept and dropped rows together are all the rows. */
  lemma {:induction false} ParseUpdatesPartition(rows: seq<Row>)
    ensures |ParseUpdates(rows)| + Occurrences(rows, Parses, false) == |rows|
  {
    if rows != [] {
      ParseUpdatesPartition(rows[..|rows| - 1]);
    }
  }

  /** Each order survives parsing as often as rows parse to it. */
  lemma {:induction false} ParseUpdatesCounts(rows: seq<Row>, o: Order)
    ensures multiset(ParseUpdates(rows))[o] == Occurrences(rows, ParseRow, Some(o))
  {
    if rows != [] {
      var init := rows[..|rows| - 1];
      ParseUpdatesCounts(init, o);
      var kept := ParseUpdates(init);
      match ParseRow(rows[|rows| - 1])
      case None =>
      case Some(p) =>
        assert multiset(kept + [p]) == multiset(kept) + multiset{p};
    }
  }

  predicate SortedByDate(s: seq<Order>) {
    forall i, j :: 0 <= i < j < |s| ==> Ordinal(s[i].updated) <= Ordinal(s[j].updated)
  }

  /** No order in s is dated before o. */
  predicate NotAfterAll(o: Order, s: seq<Order>) {
    forall x :: x in s ==> Ordinal(o.updated) <= Ordinal(x.updated)
  }

  lemma ConsSorted(o: Order, s: seq<Order>)
    requires SortedByDate(s) && NotAfterAll(o, s)
    ensures SortedByDate([o] + s)
  {
    var r := [o] + s;
    forall i, j | 0 <= i < j < |r|
      ensures Ordinal(r[i].updated) <= Ordinal(r[j].updated)
    {
      assert r[j] == s[j - 1];
      if i > 0 {
        assert r[i] == s[i - 1];
      }
    }
  }

  /** An order dated no later than the first of a sorted sequence is dated no
      later than any of it. */
  lemma FirstIsLeast(o: Order, s: seq<Order>)
    requires s != [] && SortedByDate(s) && Ordinal(o.updated) <= Ordinal(s[0].updated)
    ensures NotAfterAll(o, s)
  {
    forall x | x in s
      ensures Ordinal(o.updated) <= Ordinal(x.updated)
    {
      var k :| 0 <= k < |s| && s[k] == x;
      assert k == 0 || Ordinal(s[0].updated) <= Ordinal(s[k].updated);
    }
  }

  /** The head of a sorted sequence is dated no later than the rest of it with
      a later order added. */
  lemma HeadIsLeast(o: Order, s: seq<Order>, tail: seq<Order>)
    requires s != [] && SortedByDate(s) && Ordinal(s[0].updated) < Ordinal(o.updated)
    requires multiset(tail) == multiset(s[1..]) + multiset{o}
    ensures NotAfterAll(s[0], tail)
  {
    forall x | x in tail
      ensures Ordinal(s[0].updated) <= Ordinal(x.updated)
    {
      assert x in multiset(tail);
      if x != o {
        assert x in multiset(s[1..]);
        var k :| 0 <= k < |s[1..]| && s[1..][k] == x;
        assert s[k + 1] == x;
      }
    }
  }

  /** An order dated after the head of a sorted sequence goes behind it. */
  lemma InsertBehind(o: Order, s: seq<Order>, tail: seq<Order>)
    requires s != [] && SortedByDate(s) && Ordinal(s[0].updated) < Ordinal(o.updated)
    requires SortedByDate(tail) && multiset(tail) == multiset(s[1..]) + multiset{o}
    ensures SortedByDate([s[0]] + tail)
    ensures multiset([s[0]] + tail) == multiset(s) + multiset{o}
  {
    HeadIsLeast(o, s, tail);
    ConsSorted(s[0], tail);
    assert s == [s[0]] + s[1..];
  }

  function Insert(o: Order, s: seq<Order>): (r: seq<Order>)
    requires SortedByDate(s)
    ensures SortedByDate(r)
    ensures multiset(r) == multiset(s) + multiset{o}
  {
    if s == [] then [o]
    else if Ordinal(o.updated) <= Ordinal(s[0].updated) then
      FirstIsLeast(o, s);
      ConsSorted(o, s);
      [o] + s
    else
      var tail := Insert(o, s[1..]);
      InsertBehind(o, s, tail);
      [s[0]] + tail
  }

  /** `sort_values('UPDATE DATE')`, as a stable insertion sort; pandas' own
      sort is not stable, which `AnySortedOrderDedups` accounts for. */
  function SortByDate(s: seq<Order>): (r: seq<Order>)
    ensures SortedByDate(r)
    ensures multiset(r) == multiset(s)
  {
    if s == [] then []
    else
      assert s == [s[0]] + s[1..];
      Insert(s[0], SortByDate(s[1..]))
  }

  function Code(o: Order): string {
    o.code
  }

  function Codes(s: seq<Order>): set<string> {
    set o | o in s :: o.code
  }

  predicate UniqueCodes(s: seq<Order>) {
    UniqueIds(s, Code)
  }

  /** No row of s has a later update date than o among the rows with o's code. */
  predicate IsLatest(o: Order, s: seq<Order>) {
    forall x :: x in s && x.code == o.code ==> Ordinal(x.updated) <= Ordinal(o.updated)
  }

  lemma ConsCodes(o: Order, s: seq<Order>)
    ensures Codes([o] + s) == {o.code} + Codes(s)
  {
    assert forall x :: x in [o] + s <==> x == o || x in s;
  }

  lemma ConsUnique(o: Order, s: seq<Order>)
    requires UniqueCodes(s) && o.code !in Codes(s)
    ensures UniqueCodes([o] + s)
  {
    var r := [o] + s;
    forall i, j | 0 <= i < j < |r|
      ensures Code(r[i]) != Code(r[j])
    {
      assert r[j] == s[j - 1];
      if i > 0 {
        assert r[i] == s[i - 1];
      } else {
        assert s[j - 1] in s;
      }
    }
  }

  /** `drop_duplicates(subset='ORDER CODE', keep='last')`: a row is kept when no
      later row has its code. */
  function KeepLast(s: seq<Order>): (r: seq<Order>)
    ensures UniqueCodes(r)
    ensures Codes(r) == Codes(s)
    ensures multiset(r) <= multiset(s)
  {
    if s == [] then []
    else
      var rest := KeepLast(s[1..]);
      assert s == [s[0]] + s[1..];
      ConsCodes(s[0], s[1..]);
      if s[0].code in Codes(s[1..]) then rest
      else
        ConsCodes(s[0], rest);
        ConsUnique(s[0], rest);
        [s[0]] + rest
  }

  /** On rows sorted by date, the row kept for each code is one with that
      code's latest update date. */
  lemma {:induction false} KeepLastKeepsLatest(s: seq<Order>)
    requires SortedByDate(s)
    ensures forall o :: o in KeepLast(s) ==> IsLatest(o, s)
  {
    if s != [] {
      var tail := s[1..];
      assert s == [s[0]] + tail;
      KeepLastKeepsLatest(tail);
      forall o | o in KeepLast(s)
        ensures IsLatest(o, s)
      {
        if o in KeepLast(tail) {
          assert o in multiset(KeepLast(tail));
          TailLatest(s, o);
        } else {
          HeadLatest(s);
        }
      }
    }
  }

  /** A latest row of the tail of a date-sorted sequence is a latest row of
      the whole: the head is dated no later than it. */
  lemma TailLatest(s: seq<Order>, o: Order)
    requires s != [] && SortedByDate(s) && o in s[1..] && IsLatest(o, s[1..])
    ensures IsLatest(o, s)
  {
    var k :| 0 <= k < |s[1..]| && s[1..][k] == o;
    assert s[k + 1] == o;
    assert s == [s[0]] + s[1..];
  }

  /** A head whose code does not recur is the latest row of its code. */
  lemma HeadLatest(s: seq<Order>)
    requires s != [] && s[0].code !in Codes(s[1..])
    ensures IsLatest(s[0], s)
  {
    assert s == [s[0]] + s[1..];
    forall x | x in s && x.code == s[0].code
      ensures x == s[0]
    {
      assert x !in s[1..];
    }
  }

  /** What the dedup step promises: one row per order code, no code lost, rows
      taken from the input, and each kept row has its code's latest date.
      Which of several rows with that date survives is left open. */
  ghost predicate IsDedup(r: seq<Order>, s: seq<Order>) {
    && UniqueCodes(r)
    && Codes(r) == Codes(s)
    && multiset(r) <= multiset(s)
    && forall o :: o in r ==> IsLatest(o, s)
  }

  /** The unstable `sort_values` may order rows of equal dates any way it
      likes: keep-last dedup after any date-sorted permutation meets `IsDedup`. */
  lemma AnySortedOrderDedups(s: seq<Order>, sorted: seq<Order>)
    requires multiset(sorted) == multiset(s) && SortedByDate(sorted)
    ensures IsDedup(KeepLast(sorted), s)
  {
    var r := KeepLast(sorted);
    KeepLastKeepsLatest(sorted);
    assert forall o :: o in s <==> o in sorted by {
      forall o ensures o in s <==> o in sorted {
        assert o in s <==> o in multiset(s);
        assert o in sorted <==> o in multiset(sorted);
      }
    }
    assert Codes(sorted) == Codes(s);
  }

  /** The sort and dedup of `preprocess_data_for_*`. */
  function DropDuplicates(s: seq<Order>): (r: seq<Order>)
    ensures IsDedup(r, s)
    ensures |r| == |Codes(s)|
  {
    var sorted := SortByDate(s);
    AnySortedOrderDedups(s, sorted);
    var r := KeepLast(sorted);
    UniqueCodesCount(r);
    r
  }

  /** With codes unique, there are as many rows as codes. */
  lemma {:induction false} UniqueCodesCount(s: seq<Order>)
    requires UniqueCodes(s)
    ensures |Codes(s)| == |s|
  {
    if s != [] {
      var tail := s[1..];
      assert s == [s[0]] + tail;
      UniqueCodesCount(tail);
      assert Codes(s) == Codes(tail) + {s[0].code};
    }
  }

  /** The current snapshot after parsing and dedup: the orders the current
      tables count. */
  function Clean(rows: seq<Row>): (r: seq<Order>)
    ensures IsDedup(r, ParseUpdates(rows))
    ensures |r| == |Codes(ParseUpdates(rows))|
  {
    DropDuplicates(ParseUpdates(rows))
  }
}

=== FILE: date_text.dfy ===
/** Date text as the two scripts read it: a strict `dd<sep>mm<sep>yyyy`
    format (`%d-%m-%Y` for file names and trend dates, `%d/%m/%Y` for update
    dates) and the first whitespace-separated token of a cell, which is what
    `str.split().str[0]` selects. */
module DateText {
  import opened Results
  import opened Calendar

  predicate IsDigit(c: char) {
    '0' <= c <= '9'
  }

  function DigitValue(c: char): int
    requires IsDigit(c)
  {
    c as int - '0' as int
  }

  function Digit(n: int): char
    requires 0 <= n <= 9
  {
    ('0' as int + n) as char
  }

  function Num2(a: char, b: char): int
    requires IsDigit(a) && IsDigit(b)
  {
    DigitValue(a) * 10 + DigitValue(b)
  }

  /** A date written with two-digit day and month and four-digit year. */
  function FormatDate(d: Date, sep: char): (s: string)
    requires 0 <= d.day <= 99 && 0 <= d.month <= 99 && 0 <= d.year <= 9999
    ensures |s| == 10 && s[2] == sep && s[5] == sep
  {
    [Digit(d.day / 10), Digit(d.day % 10), sep,
     Digit(d.month / 10), Digit(d.month % 10), sep,
     Digit(d.year / 1000), Digit(d.year / 100 % 10), Digit(d.year / 10 % 10), Digit(d.year % 10)]
  }

  /** Ten characters: two digits, the separator, two digits, the separator,
      four digits. */
  predicate DateShape(s: string, sep: char) {
    |s| == 10 && s[2] == sep && s[5] == sep
    && IsDigit(s[0]) && IsDigit(s[1]) && IsDigit(s[3]) && IsDigit(s[4])
    && IsDigit(s[6]) && IsDigit(s[7]) && IsDigit(s[8]) && IsDigit(s[9])
  }

  /** `datetime.strptime(s, "%d<sep>%m<sep>%Y")` on the strict two-digit/
      four-digit form, with the calendar check it performs (day within the
      month, leap years, year at least 1). */
  function ParseDate(s: string, sep: char): (r: Option<CalendarDate>)
    ensures r.Some? ==> DateShape(s, sep) && r.value.year <= 9999
  {
    if DateShape(s, sep) then
      var d := Date(Num2(s[0], s[1]), Num2(s[3], s[4]), Num2(s[6], s[7]) * 100 + Num2(s[8], s[9]));
      if Valid(d) then Some(d) else None
    else None
  }

  /** A successful parse reads back the text exactly: every accepted text is
      the canonical form of its date. */
  lemma ParseDateCanonical(s: string, sep: char)
    requires ParseDate(s, sep).Some?
    ensures FormatDate(ParseDate(s, sep).value, sep) == s
  {
    var d := ParseDate(s, sep).value;
    var f := FormatDate(d, sep);
    TwoDigits(s[0], s[1]);
    TwoDigits(s[3], s[4]);
    FourDigits(s[6], s[7], s[8], s[9]);
    assert f[0] == s[0] && f[1] == s[1] && f[3] == s[3] && f[4] == s[4];
    assert f[6] == s[6] && f[7] == s[7] && f[8] == s[8] && f[9] == s[9];
    assert forall i :: 0 <= i < 10 ==> f[i] == s[i];
  }

  lemma TwoDigits(a: char, b: char)
    requires IsDigit(a) && IsDigit(b)
    ensures Digit(Num2(a, b) / 10) == a && Digit(Num2(a, b) % 10) == b
  {
  }

  lemma FourDigits(a: char, b: char, c: char, d: char)
    requires IsDigit(a) && IsDigit(b) && IsDigit(c) && IsDigit(d)
    ensures var y := Num2(a, b) * 100 + Num2(c, d);
      Digit(y / 1000) == a && Digit(y / 100 % 10) == b && Digit(y / 10 % 10) == c && Digit(y % 10) == d
  {
    var y := Num2(a, b) * 100 + Num2(c, d);
    var da, db, dc, dd := DigitValue(a), DigitValue(b), DigitValue(c), DigitValue(d);
    assert y == 1000 * da + 100 * db + 10 * dc + dd;
    assert y / 1000 == da;
    assert y / 100 == 10 * da + db;
    assert y / 10 == 100 * da + 10 * db + dc;
  }

  /** Formatting a date and parsing it back yields the same date, as long as
      the separator is not itself a digit. */
  lemma ParseFormat(d: CalendarDate, sep: char)
    requires d.year <= 9999 && !IsDigit(sep)
    ensures ParseDate(FormatDate(d, sep), sep) == Some(d)
  {
    var s := FormatDate(d, sep);
    DigitsOf(d.day);
    DigitsOf(d.month);
    DigitsOf(d.year / 100);
    DigitsOf(d.year % 100);
    YearDigits(d.year);
    assert DateShape(s, sep);
  }

  /** The four year digits are the two digits of the century followed by the
      two digits of the year within it. */
  lemma YearDigits(y: int)
    requires 0 <= y <= 9999
    ensures y / 1000 == y / 100 / 10
    ensures y / 10 % 10 == y % 100 / 10 && y % 10 == y % 100 % 10
  {
    var h, l := y / 100, y % 100;
    var a, b := h / 10, h % 10;
    var c, e := l / 10, l % 10;
    assert y == 1000 * a + 100 * b + 10 * c + e;
    assert y / 1000 == a;
    assert y / 10 == 100 * a + 10 * b + c;
  }

  /** Two digits written out read back as the number. */
  lemma DigitsOf(n: int)
    requires 0 <= n <= 99
    ensures IsDigit(Digit(n / 10)) && IsDigit(Digit(n % 10)) && Num2(Digit(n / 10), Digit(n % 10)) == n
  {
  }

  /** A pandas timestamp: a calendar date, or NaT ("not a time"). */
  datatype Stamp = At(date: CalendarDate) | NaT

  /** The texts `pd.to_datetime` turns into NaT before it tries the format:
      the empty text and the spellings of NaT and NaN. */
  predicate IsNaTText(s: string) {
    s == "" || s == "NaT" || s == "nat" || s == "NAT" || s == "nan" || s == "NaN" || s == "NAN"
  }

  /** `pd.to_datetime(s, format="%d<sep>%m<sep>%Y")` with the default
      errors='raise': a timestamp, NaT, or None where pandas raises. */
  function ToDatetime(s: string, sep: char): (r: Option<Stamp>)
    ensures r == Some(NaT) <==> IsNaTText(s)
    ensures r.None? <==> !IsNaTText(s) && ParseDate(s, sep).None?
    ensures r.Some? && r.value.At? ==> r.value.date.year <= 9999 && DateShape(s, sep)
  {
    if IsNaTText(s) then Some(NaT)
    else match ParseDate(s, sep)
      case None => None
      case Some(d) => Some(At(d))
  }

  /** A written date is read back as that date, never as NaT. */
  lemma ToDatetimeFormat(d: CalendarDate, sep: char)
    requires d.year <= 9999 && !IsDigit(sep)
    ensures ToDatetime(FormatDate(d, sep), sep) == Some(At(d))
  {
    ParseFormat(d, sep);
    assert |FormatDate(d, sep)| == 10;
  }

  /** A text read as a date is exactly the written form of that date. */
  lemma ToDatetimeCanonical(s: string, sep: char)
    requires ToDatetime(s, sep).Some? && ToDatetime(s, sep).value.At?
    ensures FormatDate(ToDatetime(s, sep).value.date, sep) == s
  {
    ParseDateCanonical(s, sep);
  }

  /** Formatted dates hold only digits and the separator. */
  lemma FormatDateChars(d: CalendarDate, sep: char)
    requires d.year <= 9999
    ensures forall i :: 0 <= i < 10 ==> IsDigit(FormatDate(d, sep)[i]) || FormatDate(d, sep)[i] == sep
  {
  }

  /** The characters Python's `str.isspace` accepts, which `str.split()`
      splits on. */
  predicate IsSpace(c: char) {
    var n := c as int;
    n == 0x20 || 0x09 <= n <= 0x0D || 0x1C <= n <= 0x1F || n == 0x85 || n == 0xA0
    || n == 0x1680 || 0x2000 <= n <= 0x200A || n == 0x2028 || n == 0x2029
    || n == 0x202F || n == 0x205F || n == 0x3000
  }

  predicate AllSpace(s: string) {
    forall i :: 0 <= i < |s| ==> IsSpace(s[i])
  }

  predicate NoSpace(s: string) {
    forall i :: 0 <= i < |s| ==> !IsSpace(s[i])
  }

  function SkipSpaces(s: string): (r: string)
    ensures |r| > 0 ==> !IsSpace(r[0])
  {
    if |s| > 0 && IsSpace(s[0]) then SkipSpaces(s[1..]) else s
  }

  function TakeToken(s: string): string {
    if |s| > 0 && !IsSpace(s[0]) then [s[0]] + TakeToken(s[1..]) else []
  }

  /** `s.split()[0]`, or None (a missing value) when the split is empty. */
  function FirstToken(s: string): (r: Option<string>)
    ensures r.Some? ==> |r.value| > 0 && NoSpace(r.value)
  {
    var rest := SkipSpaces(s);
    TakeTokenNoSpace(rest);
    if rest == [] then None else Some(TakeToken(rest))
  }

  lemma {:induction false} TakeTokenNoSpace(s: string)
    ensures NoSpace(TakeToken(s))
    ensures |s| > 0 && !IsSpace(s[0]) ==> |TakeToken(s)| > 0
  {
    if |s| > 0 && !IsSpace(s[0]) {
      TakeTokenNoSpace(s[1..]);
    }
  }

  /** A cell has no token exactly when it is all whitespace. */
  lemma {:induction false} FirstTokenNone(s: string)
    ensures FirstToken(s) == None <==> AllSpace(s)
  {
    SkipSpacesAllSpace(s);
  }

  lemma {:induction false} SkipSpacesAllSpace(s: string)
    ensures SkipSpaces(s) == [] <==> AllSpace(s)
  {
    if |s| > 0 && IsSpace(s[0]) {
      SkipSpacesAllSpace(s[1..]);
      assert forall i :: 1 <= i < |s| ==> s[i] == s[1..][i - 1];
    }
  }

  /** The token is the first maximal run of non-whitespace characters: whatever
      whitespace leads it and whatever follows a whitespace after it is ignored. */
  lemma {:induction false} FirstTokenOf(lead: string, token: string, rest: string)
    requires AllSpace(lead) && |token| > 0 && NoSpace(token)
    requires rest == [] || IsSpace(rest[0])
    ensures FirstToken(lead + token + rest) == Some(token)
  {
    SkipLead(lead, token + rest);
    assert lead + token + rest == lead + (token + rest);
    TakeWhole(token, rest);
  }

  lemma {:induction false} SkipLead(lead: string, s: string)
    requires AllSpace(lead) && |s| > 0 && !IsSpace(s[0])
    ensures SkipSpaces(lead + s) == s
  {
    if |lead| > 0 {
      assert (lead + s)[1..] == lead[1..] + s;
      SkipLead(lead[1..], s);
    }
  }

  lemma {:induction false} TakeWhole(token: string, rest: string)
    requires NoSpace(token)
    requires rest == [] || IsSpace(rest[0])
    ensures TakeToken(token + rest) == token
  {
    if |token| > 0 {
      assert (token + rest)[1..] == token[1..] + rest;
      TakeWhole(token[1..], rest);
    }
  }

  /** The `UPDATE DATE` cell read as the scripts read it: its first
      whitespace-separated token parsed as `%d/%m/%Y`; None is pandas' NaT. */
  function UpdateDate(cell: string): (r: Option<CalendarDate>)
    ensures r.Some? ==> r.value.year <= 9999 && FirstToken(cell).Some?
  {
    match FirstToken(cell)
    case None => None
    case Some(token) => ParseDate(token, '/')
  }

  /** A cell holding a date followed by a time component (or nothing) yields
      that date, whatever whitespace surrounds it. */
  lemma UpdateDateOf(lead: string, d: CalendarDate, rest: string)
    requires AllSpace(lead) && d.year <= 9999
    requires rest == [] || IsSpace(rest[0])
    ensures UpdateDate(lead + FormatDate(d, '/') + rest) == Some(d)
  {
    var s := FormatDate(d, '/');
    FormatDateChars(d, '/');
    assert NoSpace(s);
    FirstTokenOf(lead, s, rest);
    ParseFormat(d, '/');
  }
}

=== FILE: file_names.dfy ===
/** The file-name conventions of the snapshot folder: which names count as CSV
    files, and the date a name carries in its last `_`-separated segment. */
module FileNames {
  import opened Results
  import opened Calendar
  import opened DateText

  /** Case folding of `str.lower()` restricted to ASCII letters, the only ones
      that can make a name end in ".csv". */
  function LowerChar(c: char): char {
    if 'A' <= c <= 'Z' then (c as int + 32) as char else c
  }

  function Lower(s: string): (r: string)
    ensures |r| == |s| && forall i :: 0 <= i < |s| ==> r[i] == LowerChar(s[i])
  {
    if s == [] then [] else [LowerChar(s[0])] + Lower(s[1..])
  }

  /** `name.lower().endswith(".csv")`, read character by character (see
      `CsvNameIsLowerSuffix`). */
  predicate IsCsvName(name: string) {
    |name| >= 4 && name[|name| - 4] == '.' && LowerChar(name[|name| - 3]) == 'c'
    && LowerChar(name[|name| - 2]) == 's' && LowerChar(name[|name| - 1]) == 'v'
  }

  /** A name is a CSV name exactly when it ends in a dot followed by `c`, `s`
      and `v` in either case. */
  lemma CsvNameCases(name: string)
    ensures IsCsvName(name) <==>
      |name| >= 4 && name[|name| - 4] == '.'
      && (name[|name| - 3] == 'c' || name[|name| - 3] == 'C')
      && (name[|name| - 2] == 's' || name[|name| - 2] == 'S')
      && (name[|name| - 1] == 'v' || name[|name| - 1] == 'V')
  {
  }

  /** The character-wise test is the lower-cased name ending in ".csv". */
  lemma CsvNameIsLowerSuffix(name: string)
    ensures IsCsvName(name) <==> |name| >= 4 && Lower(name)[|name| - 4..] == ".csv"
  {
    if |name| >= 4 {
      var low := Lower(name);
      var n := |name|;
      EndsWithCsv(low);
      assert low[n - 4] == LowerChar(name[n - 4]) && low[n - 3] == LowerChar(name[n - 3]);
      assert low[n - 2] == LowerChar(name[n - 2]) && low[n - 1] == LowerChar(name[n - 1]);
    }
  }

  lemma EndsWithCsv(s: string)
    requires |s| >= 4
    ensures s[|s| - 4..] == ".csv" <==>
      s[|s| - 4] == '.' && s[|s| - 3] == 'c' && s[|s| - 2] == 's' && s[|s| - 1] == 'v'
  {
    var n := |s|;
    assert s[n - 4..] == [s[n - 4], s[n - 3], s[n - 2], s[n - 1]];
  }

  /** `s.split(sep)[-1]`: the text after the last separator, or all of `s`. */
  function LastSegment(s: string, sep: char): (r: string)
    ensures sep !in r
    ensures |r| <= |s| && r == s[|s| - |r|..]
    ensures |r| < |s| ==> s[|s| - |r| - 1] == sep
  {
    if |s| == 0 || s[|s| - 1] == sep then []
    else LastSegment(s[..|s| - 1], sep) + [s[|s| - 1]]
  }

  /** `s.split(sep)[0]`: the text before the first separator, or all of `s`. */
  function FirstSegment(s: string, sep: char): (r: string)
    ensures sep !in r
    ensures |r| <= |s| && r == s[..|r|]
    ensures |r| < |s| ==> s[|r|] == sep
  {
    if |s| == 0 || s[0] == sep then []
    else [s[0]] + FirstSegment(s[1..], sep)
  }

  /** `file.split("_")[-1].split('.')[0]` */
  function DateSuffix(name: string): string {
    FirstSegment(LastSegment(name, '_'), '.')
  }

  /** The extraction date of a file: a date, NaT for an empty or NaT-like
      suffix, or None where `pd.to_datetime(..., format="%d-%m-%Y")` raises. */
  function FileDate(name: string): Option<Stamp> {
    ToDatetime(DateSuffix(name), '-')
  }

  /** The file-name convention `<prefix><date>.csv`. */
  function SnapshotName(prefix: string, dateText: string): string {
    prefix + dateText + ".csv"
  }

  lemma {:induction false} LastSegmentAfter(a: string, b: string, sep: char)
    requires |a| > 0 && a[|a| - 1] == sep && sep !in b
    ensures LastSegment(a + b, sep) == b
  {
    if |b| > 0 {
      assert (a + b)[..|a + b| - 1] == a + b[..|b| - 1];
      LastSegmentAfter(a, b[..|b| - 1], sep);
    } else {
      assert a + b == a;
    }
  }

  lemma {:induction false} FirstSegmentBefore(a: string, b: string, sep: char)
    requires sep !in a && (b == [] || b[0] == sep)
    ensures FirstSegment(a + b, sep) == a
  {
    if |a| > 0 {
      assert (a + b)[1..] == a[1..] + b;
      FirstSegmentBefore(a[1..], b, sep);
    }
  }

  /** A snapshot name built from a date text gives that text back, whenever the
      prefix ends in `_` and the text holds no `_` or `.`; and it is a CSV name. */
  lemma SnapshotNameRoundTrip(prefix: string, dateText: string)
    requires |prefix| > 0 && prefix[|prefix| - 1] == '_'
    requires '_' !in dateText && '.' !in dateText
    ensures DateSuffix(SnapshotName(prefix, dateText)) == dateText
    ensures IsCsvName(SnapshotName(prefix, dateText))
  {
    var name := SnapshotName(prefix, dateText);
    assert name == prefix + (dateText + ".csv");
    LastSegmentAfter(prefix, dateText + ".csv", '_');
    FirstSegmentBefore(dateText, ".csv", '.');
    CsvExtension(prefix + dateText);
  }

  lemma CsvExtension(stem: string)
    ensures IsCsvName(stem + ".csv")
  {
    var name := stem + ".csv";
    var n := |name|;
    assert name[n - 4] == '.' && name[n - 3] == 'c' && name[n - 2] == 's' && name[n - 1] == 'v';
  }

  /** A snapshot named after a calendar date carries exactly that date. */
  lemma SnapshotNameDate(prefix: string, d: CalendarDate)
    requires |prefix| > 0 && prefix[|prefix| - 1] == '_' && d.year <= 9999
    ensures FileDate(SnapshotName(prefix, FormatDate(d, '-'))) == Some(At(d))
    ensures IsCsvName(SnapshotName(prefix, FormatDate(d, '-')))
  {
    var text := FormatDate(d, '-');
    FormatDateChars(d, '-');
    SnapshotNameRoundTrip(prefix, text);
    ToDatetimeFormat(d, '-');
  }

  /** A CSV name whose date text is empty or spells NaT or NaN, such as
      `Order_Monitoring_.csv` or `summary_nan.csv`, is dated NaT rather than
      refused. */
  lemma NaTSuffixName(prefix: string, text: string)
    requires |prefix| > 0 && prefix[|prefix| - 1] == '_' && IsNaTText(text)
    ensures FileDate(SnapshotName(prefix, text)) == Some(NaT)
    ensures IsCsvName(SnapshotName(prefix, text))
  {
    SnapshotNameRoundTrip(prefix, text);
  }
}

=== FILE: grouping.dfy ===
/** pandas' `groupby(keys)[column].count()` and `.nunique()`, with the grouped
    table as a map from key tuples to counts. Only keys that occur get a row,
    so every count in a table is positive. */
module Grouping {

  /** How many elements of t have key k. */
  function Occurrences<T, K(==)>(t: seq<T>, key: T -> K, k: K): nat {
    if t == [] then 0
    else Occurrences(t[..|t| - 1], key, k) + (if key(t[|t| - 1]) == k then 1 else 0)
  }

  /** The keys that occur in t. */
  function KeysOf<T(==), K>(t: seq<T>, key: T -> K): set<K> {
    set x | x in t :: key(x)
  }

  /** A grouped table's count for k, where a missing row reads as zero. */
  function Get<K>(m: map<K, nat>, k: K): nat {
    if k in m then m[k] else 0
  }

  /** `groupby(key).count()`: the number of rows per key. */
  function CountBy<T(==), K(==, !new)>(t: seq<T>, key: T -> K): (m: map<K, nat>)
    ensures m.Keys == KeysOf(t, key)
    ensures forall k :: Get(m, k) == Occurrences(t, key, k)
  {
    if t == [] then map[]
    else
      var m := CountBy(t[..|t| - 1], key);
      var k := key(t[|t| - 1]);
      assert t == t[..|t| - 1] + [t[|t| - 1]];
      m[k := Get(m, k) + 1]
  }

  /** The distinct ids among the rows with key k. */
  function IdsWithKey<T(==), K(==), I>(t: seq<T>, key: T -> K, k: K, id: T -> I): set<I> {
    set x | x in t && key(x) == k :: id(x)
  }

  /** `groupby(key)[id].nunique()`: the number of distinct ids per key. */
  function DistinctBy<T(==), K(==), I(==)>(t: seq<T>, key: T -> K, id: T -> I): (m: map<K, nat>)
    ensures m.Keys == KeysOf(t, key)
    ensures forall k :: k in m ==> m[k] == |IdsWithKey(t, key, k, id)|
    ensures forall k :: k in m ==> 0 < m[k] <= Occurrences(t, key, k)
  {
    var m := map k | k in KeysOf(t, key) :: |IdsWithKey(t, key, k, id)|;
    forall k | k in m
      ensures 0 < m[k] <= Occurrences(t, key, k)
    {
      DistinctBound(t, key, k, id);
    }
    m
  }

  /** The rows of t that keep holds of, in their order. */
  function Where<T(==, !new)>(t: seq<T>, keep: T -> bool): (r: seq<T>)
    ensures forall x :: x in r ==> x in t && keep(x)
    ensures forall x :: x in t && keep(x) ==> x in r
    ensures forall x :: multiset(r)[x] == if keep(x) then multiset(t)[x] else 0
    ensures |r| == Occurrences(t, keep, true)
  {
    if t == [] then []
    else
      var init := t[..|t| - 1];
      var last := t[|t| - 1];
      assert t == init + [last];
      var r := Where(init, keep);
      if keep(last) then r + [last] else r
  }

  /** No two rows of t share an id. */
  predicate UniqueIds<T, I(==)>(t: seq<T>, id: T -> I) {
    forall i, j :: 0 <= i < j < |t| ==> id(t[i]) != id(t[j])
  }

  /** Keeps the rows of a grouped table whose key passes a filter
      (`table[table[col].isin(allowed)]`). */
  function Restrict<K(!new)>(m: map<K, nat>, keep: K -> bool): (r: map<K, nat>)
    ensures forall k :: Get(r, k) == (if keep(k) then Get(m, k) else 0)
    ensures forall k :: k in r ==> keep(k)
  {
    map k | k in m && keep(k) :: m[k]
  }

  /** The sum of all counts in a grouped table. */
  ghost function Total<K>(m: map<K, nat>): nat
    decreases |m|
  {
    if m == map[] then 0
    else
      var k :| k in m;
      m[k] + Total(m - {k})
  }

  lemma {:induction false} DistinctBound<T, K, I>(t: seq<T>, key: T -> K, k: K, id: T -> I)
    ensures |IdsWithKey(t, key, k, id)| <= Occurrences(t, key, k)
    ensures k in KeysOf(t, key) ==> 0 < |IdsWithKey(t, key, k, id)|
  {
    if k in KeysOf(t, key) {
      var x :| x in t && key(x) == k;
      assert id(x) in IdsWithKey(t, key, k, id);
    }
    if t != [] {
      var init := t[..|t| - 1];
      var last := t[|t| - 1];
      DistinctBound(init, key, k, id);
      assert t == init + [last];
      if key(last) == k {
        assert IdsWithKey(t, key, k, id) == IdsWithKey(init, key, k, id) + {id(last)};
      } else {
        assert IdsWithKey(t, key, k, id) == IdsWithKey(init, key, k, id);
      }
    }
  }

  /** With ids unique, counting distinct ids is counting rows: the two
      aggregations agree on every group. */
  lemma {:induction false} DistinctIsCount<T, K(!new), I>(t: seq<T>, key: T -> K, id: T -> I)
    requires UniqueIds(t, id)
    ensures DistinctBy(t, key, id) == CountBy(t, key)
  {
    var d := DistinctBy(t, key, id);
    var c := CountBy(t, key);
    forall k | k in d
      ensures d[k] == c[k]
    {
      DistinctCountsRows(t, key, k, id);
    }
  }

  lemma {:induction false} DistinctCountsRows<T, K, I>(t: seq<T>, key: T -> K, k: K, id: T -> I)
    requires UniqueIds(t, id)
    ensures |IdsWithKey(t, key, k, id)| == Occurrences(t, key, k)
  {
    if t != [] {
      var init := t[..|t| - 1];
      var last := t[|t| - 1];
      assert t == init + [last];
      DistinctCountsRows(init, key, k, id);
      if key(last) == k {
        assert IdsWithKey(t, key, k, id) == IdsWithKey(init, key, k, id) + {id(last)};
      } else {
        assert IdsWithKey(t, key, k, id) == IdsWithKey(init, key, k, id);
      }
    }
  }

  /** When the rows of group k are exactly the rows of groups a and b of a finer
      key, the count of k is the sum of the two finer counts. */
  lemma {:induction false} SplitCount<T, K, L>(t: seq<T>, coarse: T -> K, k: K, fine: T -> L, a: L, b: L)
    requires a != b
    requires forall x :: x in t ==> (coarse(x) == k <==> fine(x) == a || fine(x) == b)
    ensures Occurrences(t, coarse, k) == Occurrences(t, fine, a) + Occurrences(t, fine, b)
  {
    if t != [] {
      var init := t[..|t| - 1];
      assert forall x :: x in init ==> x in t;
      SplitCount(init, coarse, k, fine, a, b);
    }
  }

  lemma {:induction false} TotalRemove<K>(m: map<K, nat>, k: K)
    requires k in m
    ensures Total(m) == m[k] + Total(m - {k})
    decreases |m|
  {
    var j :| j in m && Total(m) == m[j] + Total(m - {j});
    if j != k {
      TotalRemove(m - {j}, k);
      TotalRemove(m - {k}, j);
      assert m - {j} - {k} == m - {k} - {j};
    }
  }

  /** Adding one row to a group adds one to the total. */
  lemma TotalBump<K>(m: map<K, nat>, k: K)
    ensures Total(m[k := Get(m, k) + 1]) == Total(m) + 1
  {
    var m' := m[k := Get(m, k) + 1];
    TotalRemove(m', k);
    if k in m {
      TotalRemove(m, k);
      assert m' - {k} == m - {k};
    } else {
      assert m' - {k} == m;
    }
  }

  /** Every row is counted in exactly one group: the counts of
      `groupby(...).count()` sum to the number of rows. */
  lemma {:induction false} TotalCountBy<T, K(!new)>(t: seq<T>, key: T -> K)
    ensures Total(CountBy(t, key)) == |t|
  {
    if t != [] {
      var init := t[..|t| - 1];
      var m := CountBy(init, key);
      var k := key(t[|t| - 1]);
      assert CountBy(t, key) == m[k := Get(m, k) + 1];
      TotalCountBy(init, key);
      TotalBump(m, k);
    }
  }

  lemma {:induction false} OccurrencesConcat<T, K>(a: seq<T>, b: seq<T>, key: T -> K, k: K)
    ensures Occurrences(a + b, key, k) == Occurrences(a, key, k) + Occurrences(b, key, k)
  {
    if b != [] {
      assert (a + b)[..|a + b| - 1] == a + b[..|b| - 1];
      OccurrencesConcat(a, b[..|b| - 1], key, k);
    } else {
      assert a + b == a;
    }
  }

  /** Two rows of one group with the same id are one distinct id: such a group
      has fewer distinct ids than rows, so `nunique()` and `count()` differ. */
  lemma DistinctBelowCount<T, K, I>(t: seq<T>, key: T -> K, id: T -> I, i: nat, j: nat)
    requires i < j < |t| && key(t[i]) == key(t[j]) && id(t[i]) == id(t[j])
    ensures key(t[i]) in DistinctBy(t, key, id)
    ensures DistinctBy(t, key, id)[key(t[i])] < Occurrences(t, key, key(t[i]))
  {
    var k := key(t[i]);
    assert t[i] in t;
    var rest := t[..j] + t[j + 1..];
    OccurrencesDrop(t, key, j);
    IdsDrop(t, key, id, i, j);
    DistinctBound(rest, key, k, id);
    SubsetCard(IdsWithKey(t, key, k, id), IdsWithKey(rest, key, k, id));
  }

  lemma SubsetCard<I>(a: set<I>, b: set<I>)
    requires a <= b
    ensures |a| <= |b|
  {
    assert b == a + (b - a);
  }

  /** Dropping row j takes one row from its group. */
  lemma OccurrencesDrop<T, K>(t: seq<T>, key: T -> K, j: nat)
    requires j < |t|
    ensures Occurrences(t[..j] + t[j + 1..], key, key(t[j])) + 1 == Occurrences(t, key, key(t[j]))
  {
    var k := key(t[j]);
    assert t == t[..j] + [t[j]] + t[j + 1..];
    OccurrencesMiddle(t[..j], t[j], t[j + 1..], key, k);
  }

  lemma OccurrencesMiddle<T, K>(a: seq<T>, x: T, b: seq<T>, key: T -> K, k: K)
    ensures Occurrences(a + [x] + b, key, k) == Occurrences(a + b, key, k) + (if key(x) == k then 1 else 0)
  {
    OccurrencesSnoc(a, x, key, k);
    OccurrencesConcat(a + [x], b, key, k);
    OccurrencesConcat(a, b, key, k);
  }

  /** Dropping row j loses no id of its group when row i keeps that id. */
  lemma IdsDrop<T, K, I>(t: seq<T>, key: T -> K, id: T -> I, i: nat, j: nat)
    requires i < j < |t| && key(t[i]) == key(t[j]) && id(t[i]) == id(t[j])
    ensures IdsWithKey(t, key, key(t[j]), id) <= IdsWithKey(t[..j] + t[j + 1..], key, key(t[j]), id)
  {
    var k := key(t[j]);
    var rest := t[..j] + t[j + 1..];
    forall x | x in t && key(x) == k
      ensures id(x) in IdsWithKey(rest, key, k, id)
    {
      var n :| 0 <= n < |t| && t[n] == x;
      if n == j {
        assert t[i] == rest[i];
      } else if n < j {
        assert x == rest[n];
      } else {
        assert x == rest[n - 1];
      }
    }
  }

  lemma OccurrencesSnoc<T, K>(a: seq<T>, x: T, key: T -> K, k: K)
    ensures Occurrences(a + [x], key, k) == Occurrences(a, key, k) + (if key(x) == k then 1 else 0)
  {
    assert (a + [x])[..|a|] == a;
  }

  /** Filtering by a condition that every row of group k meets keeps the
      group's count. */
  lemma {:induction false} OccurrencesWhere<T(!new), K>(t: seq<T>, keep: T -> bool, key: T -> K, k: K)
    requires forall x :: x in t && key(x) == k ==> keep(x)
    ensures Occurrences(Where(t, keep), key, k) == Occurrences(t, key, k)
  {
    if t != [] {
      var init := t[..|t| - 1];
      var last := t[|t| - 1];
      assert t == init + [last];
      assert last in t;
      assert forall x :: x in init ==> x in t;
      OccurrencesWhere(init, keep, key, k);
      var w := Where(init, keep);
      if keep(last) {
        assert Where(t, keep) == w + [last];
        OccurrencesSnoc(w, last, key, k);
      } else {
        assert Where(t, keep) == w;
      }
    }
  }

  /** Filtering by a condition that no row of group k meets empties the group. */
  lemma {:induction false} OccurrencesWhereNone<T(!new), K>(t: seq<T>, keep: T -> bool, key: T -> K, k: K)
    requires forall x :: x in t && key(x) == k ==> !keep(x)
    ensures Occurrences(Where(t, keep), key, k) == 0
  {
    if t != [] {
      var init := t[..|t| - 1];
      var last := t[|t| - 1];
      assert t == init + [last];
      assert last in t;
      assert forall x :: x in init ==> x in t;
      OccurrencesWhereNone(init, keep, key, k);
      var w := Where(init, keep);
      if keep(last) {
        assert Where(t, keep) == w + [last];
        OccurrencesSnoc(w, last, key, k);
      } else {
        assert Where(t, keep) == w;
      }
    }
  }

  /** A condition every row meets filters nothing out. */
  lemma {:induction false} WhereAll<T(!new)>(t: seq<T>, keep: T -> bool)
    requires forall x :: x in t ==> keep(x)
    ensures Where(t, keep) == t
  {
    if t != [] {
      var init := t[..|t| - 1];
      assert t == init + [t[|t| - 1]];
      assert forall x :: x in init ==> x in t;
      WhereAll(init, keep);
    }
  }

  /** Filtering a concatenation filters each part and keeps them in order;
      with `WhereSingle` this fixes the filtered rows and their order. */
  lemma {:induction false} WhereConcat<T(!new)>(a: seq<T>, b: seq<T>, keep: T -> bool)
    ensures Where(a + b, keep) == Where(a, keep) + Where(b, keep)
  {
    if b != [] {
      var init := b[..|b| - 1];
      var last := b[|b| - 1];
      assert b == init + [last];
      assert a + b == (a + init) + [last];
      WhereConcat(a, init, keep);
      WhereSnoc(init, last, keep);
      WhereSnoc(a + init, last, keep);
      if keep(last) {
        assert (Where(a, keep) + Where(init, keep)) + [last] == Where(a, keep) + (Where(init, keep) + [last]);
      }
    } else {
      assert a + b == a;
    }
  }

  lemma WhereSnoc<T(!new)>(t: seq<T>, x: T, keep: T -> bool)
    ensures Where(t + [x], keep) == if keep(x) then Where(t, keep) + [x] else Where(t, keep)
  {
    assert (t + [x])[..|t|] == t;
  }

  /** A single row is kept exactly when it meets the condition. */
  lemma WhereSingle<T(!new)>(x: T, keep: T -> bool)
    ensures Where([x], keep) == if keep(x) then [x] else []
  {
    assert [x][..0] == [];
  }
}

=== FILE: not_exported_analysis.dfy ===
/** `Order_Not_Exported_Analysis.py`: the pipeline instantiated for the
    not-exported snapshots, grouped by country only, with a 5-day threshold and
    no status filter. */
module NotExportedAnalysis {
  import opened Results
  import opened Calendar
  import opened DateText
  import opened FileNames
  import opened Records
  import opened Snapshots
  import opened Cleaning
  import opened Ageing
  import opened Grouping

  const Prefix := "Order_Not_Exported_"
  const Threshold: nat := 5

  /** The three tables `preprocess_data_for_not_exported` returns. */
  datatype Tables = Tables(
    g1: map<string, nat>,
    g2: map<(string, AgeCategory), nat>,
    g3: map<(string, Stamp), nat>)

  function CountryKey(o: Order): string {
    o.country
  }

  function AgeKey(today: CalendarDate): Order -> (string, AgeCategory) {
    (o: Order) => (o.country, Category(Threshold, today, o.updated))
  }

  function TrendKey(t: TrendRow): (string, Stamp) {
    (t.row.country, t.extractionDate)
  }

  /** `preprocess_data_for_not_exported(current_df, combined_df)` with the run
      date as a parameter. Grouping a trend frame without columns raises. */
  function Preprocess(current: seq<Row>, trend: Combined, today: CalendarDate): (r: Result<Tables>)
    ensures r.Err? <==> trend.NoColumns?
    ensures r.Err? ==> r.error == MissingColumn("COUNTRY")
    ensures r.Ok? ==> r.value.g1.Keys == KeysOf(Clean(current), CountryKey)
    ensures r.Ok? ==> forall k :: k in r.value.g2 ==> r.value.g2[k] > 0
    ensures r.Ok? ==> r.value.g3.Keys == KeysOf(Where(trend.rows, HasDate), TrendKey)
    ensures r.Ok? ==> forall k :: k in r.value.g3 ==> k.1.At?
  {
    var orders := Clean(current);
    var g1 := DistinctBy(orders, CountryKey, Code);
    var g2 := DistinctBy(orders, AgeKey(today), Code);
    if trend.NoColumns? then Err(MissingColumn("COUNTRY"))
    else Ok(Tables(g1, g2, CountBy(Where(trend.rows, HasDate), TrendKey)))
  }

  /** The whole script up to the charts, for a data folder and a run date. */
  function Run(dir: seq<File>, dateText: string, trendTexts: seq<string>, today: CalendarDate): Result<Tables> {
    var loaded :- SetupPaths(Prefix, dir, dateText, trendTexts);
    Preprocess(loaded.current, loaded.trend, today)
  }

  /** The current snapshot's name gives back the date text it was built from. */
  lemma FileNameRoundTrip(dateText: string)
    requires '_' !in dateText && '.' !in dateText
    ensures DateSuffix(SnapshotName(Prefix, dateText)) == dateText
    ensures IsCsvName(SnapshotName(Prefix, dateText))
  {
    SnapshotNameRoundTrip(Prefix, dateText);
  }

  /** The snapshot `<prefix><dd-mm-yyyy>.csv` of a trend date is read into the
      trend frame. */
  lemma TrendSnapshotSelected(d: CalendarDate, dates: seq<Stamp>)
    requires At(d) in dates && d.year <= 9999
    ensures Selected(File(SnapshotName(Prefix, FormatDate(d, '-')), []), dates)
  {
    SnapshotNameDate(Prefix, d);
  }

  /** Because the current orders have unique codes, the distinct-code tables
      are row-count tables. */
  lemma CurrentTablesCountOrders(current: seq<Row>, trend: Combined, today: CalendarDate)
    requires Preprocess(current, trend, today).Ok?
    ensures Preprocess(current, trend, today).value.g1 == CountBy(Clean(current), CountryKey)
    ensures Preprocess(current, trend, today).value.g2 == CountBy(Clean(current), AgeKey(today))
  {
    DistinctIsCount(Clean(current), CountryKey, Code);
    DistinctIsCount(Clean(current), AgeKey(today), Code);
  }

  /** g1 counts every deduplicated order once: its counts sum to the number of
      distinct order codes among the rows whose update date parsed. */
  lemma G1TotalIsOrders(current: seq<Row>, trend: Combined, today: CalendarDate)
    requires Preprocess(current, trend, today).Ok?
    ensures Total(Preprocess(current, trend, today).value.g1) == |Codes(ParseUpdates(current))|
  {
    CurrentTablesCountOrders(current, trend, today);
    TotalCountBy(Clean(current), CountryKey);
  }

  /** Splitting each country by age category loses no order: the Under and
      Over counts of g2 add up to the g1 count. */
  lemma G2SumsToG1(current: seq<Row>, trend: Combined, today: CalendarDate, country: string)
    requires Preprocess(current, trend, today).Ok?
    ensures Get(Preprocess(current, trend, today).value.g1, country)
      == Get(Preprocess(current, trend, today).value.g2, (country, Under))
       + Get(Preprocess(current, trend, today).value.g2, (country, Over))
  {
    CurrentTablesCountOrders(current, trend, today);
    AgeSplit(Clean(current), today, country);
  }

  lemma AgeSplit(orders: seq<Order>, today: CalendarDate, country: string)
    ensures Occurrences(orders, CountryKey, country)
      == Occurrences(orders, AgeKey(today), (country, Under))
       + Occurrences(orders, AgeKey(today), (country, Over))
  {
    var coarse: Order -> string := CountryKey;
    var fine := AgeKey(today);
    forall x | x in orders
      ensures coarse(x) == country <==> fine(x) == (country, Under) || fine(x) == (country, Over)
    {
      var cat := Category(Threshold, today, x.updated);
      assert coarse(x) == x.country;
      assert fine(x) == (x.country, cat);
      assert cat == Under || cat == Over;
    }
    SplitCount(orders, coarse, country, fine, (country, Under), (country, Over));
  }

  /** g3 counts trend rows, not orders: every row with an extraction date is
      counted once, in the group of its country and date, and the rows dated
      NaT are left out as `groupby` drops missing keys. */
  lemma G3TotalIsTrendRows(current: seq<Row>, trend: Combined, today: CalendarDate)
    requires Preprocess(current, trend, today).Ok?
    ensures Total(Preprocess(current, trend, today).value.g3) == |Where(trend.rows, HasDate)|
    ensures forall k ::
      Get(Preprocess(current, trend, today).value.g3, k) == if k.1.At? then Occurrences(trend.rows, TrendKey, k) else 0
  {
    TotalCountBy(Where(trend.rows, HasDate), TrendKey);
    forall k
      ensures Occurrences(Where(trend.rows, HasDate), TrendKey, k)
        == if k.1.At? then Occurrences(trend.rows, TrendKey, k) else 0
    {
      if k.1.At? {
        OccurrencesWhere(trend.rows, HasDate, TrendKey, k);
      } else {
        OccurrencesWhereNone(trend.rows, HasDate, TrendKey, k);
      }
    }
  }

  /** An order is "Under 5 days" exactly when it was updated fewer than 5 days
      before the run date; 5 days is "Over". */
  lemma AgeCategoryThreshold(today: CalendarDate, updated: CalendarDate)
    ensures Category(Threshold, today, updated) == Under <==> DaysBetween(today, updated) < 5
    ensures Category(Threshold, AddDays(updated, 5), updated) == Over
    ensures Category(Threshold, AddDays(updated, 4), updated) == Under
    ensures Label(Under, Threshold) == "Under 5 days" && Label(Over, Threshold) == "Over 5 days"
  {
    CategoryBoundary(Threshold, updated);
    ThresholdLabels();
  }

  lemma ThresholdLabels()
    ensures Label(Under, Threshold) == "Under 5 days" && Label(Over, Threshold) == "Over 5 days"
  {
    assert Decimal(Threshold) == "5";
  }

  /** The run aborts when the folder holds no CSV file of any trend date. */
  lemma RunNeedsTrendFiles(dir: seq<File>, dateText: string, trendTexts: seq<string>, today: CalendarDate, dates: seq<Stamp>)
    requires ReadFile(dir, SnapshotName(Prefix, dateText)).Ok?
    requires ParseTrendDates(trendTexts) == Ok(dates)
    requires LoadTrend(dir, dates).Ok?
    requires NoneSelected(dir, dates)
    ensures Run(dir, dateText, trendTexts, today) == Err(MissingColumn("COUNTRY"))
  {
    LoadTrendNoColumns(dir, dates);
  }
  /** A run on a folder that holds the current snapshot, with trend texts that
      parse, no CSV name that makes the scan raise and at least one selected
      file, yields the tables of the current rows and the trend frame. With no
      NaT among the trend dates, g3 counts every row of every selected file. */
  lemma RunYieldsTables(dir: seq<File>, dateText: string, trendTexts: seq<string>, today: CalendarDate, dates: seq<Stamp>)
    requires ReadFile(dir, SnapshotName(Prefix, dateText)).Ok?
    requires ParseTrendDates(trendTexts) == Ok(dates)
    requires LoadTrend(dir, dates).Ok?
    requires !NoneSelected(dir, dates)
    ensures Run(dir, dateText, trendTexts, today).Ok?
    ensures Run(dir, dateText, trendTexts, today)
      == Preprocess(ReadFile(dir, SnapshotName(Prefix, dateText)).value, LoadTrend(dir, dates).value, today)
    ensures NaT !in dates ==> Total(Run(dir, dateText, trendTexts, today).value.g3) == |SelectedRows(dir, dates)|
  {
    var current := ReadFile(dir, SnapshotName(Prefix, dateText)).value;
    var trend := LoadTrend(dir, dates).value;
    LoadTrendNoColumns(dir, dates);
    G3TotalIsTrendRows(current, trend, today);
    LoadTrendRows(dir, dates);
    if NaT !in dates {
      TrendRowsDated(dir, dates);
      assert |multiset(trend.rows)| == |trend.rows|;
    }
  }

}

=== FILE: order_analysis.dfy ===
/** `Order_Analysis.py`: the pipeline instantiated for the order-monitoring
    snapshots, with status facets, a status allow-list and a 30-day threshold. */
module OrderAnalysis {
  import opened Results
  import opened Calendar
  import opened DateText
  import opened FileNames
  import opened Records
  import opened Snapshots
  import opened Cleaning
  import opened Ageing
  import opened Grouping

  const Prefix := "Order_Monitoring_"
  const Threshold: nat := 30
  const RelevantStatuses: set<string> := {"CREATED", "PROCESSED", "RECEIVED", "SHIPPED"}

  /** The three tables `preprocess_data_for_graphs` returns, each a map from
      its group key to the count in the `ORDER CODE` column. */
  datatype Tables = Tables(
    g1: map<(string, string), nat>,
    g2: map<(string, string, AgeCategory), nat>,
    g3: map<(string, string, Stamp), nat>)

  function StatusKey(o: Order): (string, string) {
    (o.country, o.status)
  }

  function AgeKey(today: CalendarDate): Order -> (string, string, AgeCategory) {
    (o: Order) => (o.country, o.status, Category(Threshold, today, o.updated))
  }

  function TrendKey(t: TrendRow): (string, string, Stamp) {
    (t.row.country, t.row.status, t.extractionDate)
  }

  predicate RelevantGroup(k: (string, string)) {
    k.1 in RelevantStatuses
  }

  predicate RelevantAgeGroup(k: (string, string, AgeCategory)) {
    k.1 in RelevantStatuses
  }

  /** `preprocess_data_for_graphs(current_df, combined_df)` with the run date as
      a parameter. Grouping a trend frame without columns raises. */
  function Preprocess(current: seq<Row>, trend: Combined, today: CalendarDate): (r: Result<Tables>)
    ensures r.Err? <==> trend.NoColumns?
    ensures r.Err? ==> r.error == MissingColumn("COUNTRY")
    ensures r.Ok? ==> forall k :: k in r.value.g1 ==> k.1 in RelevantStatuses && r.value.g1[k] > 0
    ensures r.Ok? ==> forall k :: k in r.value.g2 ==> k.1 in RelevantStatuses && r.value.g2[k] > 0
    ensures r.Ok? ==> r.value.g3.Keys == KeysOf(Where(trend.rows, HasDate), TrendKey)
    ensures r.Ok? ==> forall k :: k in r.value.g3 ==> k.2.At?
  {
    var orders := Clean(current);
    var g1 := Restrict(DistinctBy(orders, StatusKey, Code), RelevantGroup);
    var g2 := Restrict(DistinctBy(orders, AgeKey(today), Code), RelevantAgeGroup);
    if trend.NoColumns? then Err(MissingColumn("COUNTRY"))
    else Ok(Tables(g1, g2, CountBy(Where(trend.rows, HasDate), TrendKey)))
  }

  /** The whole script up to the charts, for a data folder and a run date. */
  function Run(dir: seq<File>, dateText: string, trendTexts: seq<string>, today: CalendarDate): Result<Tables> {
    var loaded :- SetupPaths(Prefix, dir, dateText, trendTexts);
    Preprocess(loaded.current, loaded.trend, today)
  }

  /** The current snapshot's name gives back the date text it was built from. */
  lemma FileNameRoundTrip(dateText: string)
    requires '_' !in dateText && '.' !in dateText
    ensures DateSuffix(SnapshotName(Prefix, dateText)) == dateText
    ensures IsCsvName(SnapshotName(Prefix, dateText))
  {
    SnapshotNameRoundTrip(Prefix, dateText);
  }

  /** The snapshot `<prefix><dd-mm-yyyy>.csv` of a trend date is read into the
      trend frame. */
  lemma TrendSnapshotSelected(d: CalendarDate, dates: seq<Stamp>)
    requires At(d) in dates && d.year <= 9999
    ensures Selected(File(SnapshotName(Prefix, FormatDate(d, '-')), []), dates)
  {
    SnapshotNameDate(Prefix, d);
  }

  /** Because the current orders have unique codes, the distinct-code tables
      are row-count tables restricted to the relevant statuses. */
  lemma CurrentTablesCountOrders(current: seq<Row>, trend: Combined, today: CalendarDate)
    requires Preprocess(current, trend, today).Ok?
    ensures Preprocess(current, trend, today).value.g1 == Restrict(CountBy(Clean(current), StatusKey), RelevantGroup)
    ensures Preprocess(current, trend, today).value.g2 == Restrict(CountBy(Clean(current), AgeKey(today)), RelevantAgeGroup)
  {
    DistinctIsCount(Clean(current), StatusKey, Code);
    DistinctIsCount(Clean(current), AgeKey(today), Code);
  }

  /** g1 counts, per (country, status) with a relevant status, the distinct
      order codes: one per deduplicated order. */
  lemma G1CountsOrders(current: seq<Row>, trend: Combined, today: CalendarDate, k: (string, string))
    requires Preprocess(current, trend, today).Ok?
    ensures Get(Preprocess(current, trend, today).value.g1, k)
      == if k.1 in RelevantStatuses then Occurrences(Clean(current), StatusKey, k) else 0
  {
    CurrentTablesCountOrders(current, trend, today);
  }

  /** Splitting each (country, status) group by age category loses no order:
      the Under and Over counts of g2 add up to the g1 count. */
  lemma G2SumsToG1(current: seq<Row>, trend: Combined, today: CalendarDate, country: string, status: string)
    requires Preprocess(current, trend, today).Ok?
    ensures Get(Preprocess(current, trend, today).value.g1, (country, status))
      == Get(Preprocess(current, trend, today).value.g2, (country, status, Under))
       + Get(Preprocess(current, trend, today).value.g2, (country, status, Over))
  {
    var t := Preprocess(current, trend, today).value;
    CurrentTablesCountOrders(current, trend, today);
    SplitTables(Clean(current), today, t.g1, t.g2, country, status);
  }

  lemma SplitTables(orders: seq<Order>, today: CalendarDate, g1: map<(string, string), nat>,
                    g2: map<(string, string, AgeCategory), nat>, country: string, status: string)
    requires g1 == Restrict(CountBy(orders, StatusKey), RelevantGroup)
    requires g2 == Restrict(CountBy(orders, AgeKey(today)), RelevantAgeGroup)
    ensures Get(g1, (country, status)) == Get(g2, (country, status, Under)) + Get(g2, (country, status, Over))
  {
    AgeSplit(orders, today, country, status);
  }

  lemma AgeSplit(orders: seq<Order>, today: CalendarDate, country: string, status: string)
    ensures Occurrences(orders, StatusKey, (country, status))
      == Occurrences(orders, AgeKey(today), (country, status, Under))
       + Occurrences(orders, AgeKey(today), (country, status, Over))
  {
    var coarse: Order -> (string, string) := StatusKey;
    var fine := AgeKey(today);
    forall x | x in orders
      ensures coarse(x) == (country, status)
        <==> fine(x) == (country, status, Under) || fine(x) == (country, status, Over)
    {
      var cat := Category(Threshold, today, x.updated);
      assert coarse(x) == (x.country, x.status);
      assert fine(x) == (x.country, x.status, cat);
      assert cat == Under || cat == Over;
    }
    SplitCount(orders, coarse, (country, status), fine, (country, status, Under), (country, status, Over));
  }

  /** g3 counts trend rows, not orders: every row with an extraction date is
      counted once, in the group of its country, status and date, and the rows
      dated NaT are left out as `groupby` drops missing keys. */
  lemma G3TotalIsTrendRows(current: seq<Row>, trend: Combined, today: CalendarDate)
    requires Preprocess(current, trend, today).Ok?
    ensures Total(Preprocess(current, trend, today).value.g3) == |Where(trend.rows, HasDate)|
    ensures forall k ::
      Get(Preprocess(current, trend, today).value.g3, k) == if k.2.At? then Occurrences(trend.rows, TrendKey, k) else 0
  {
    TotalCountBy(Where(trend.rows, HasDate), TrendKey);
    forall k
      ensures Occurrences(Where(trend.rows, HasDate), TrendKey, k)
        == if k.2.At? then Occurrences(trend.rows, TrendKey, k) else 0
    {
      if k.2.At? {
        OccurrencesWhere(trend.rows, HasDate, TrendKey, k);
      } else {
        OccurrencesWhereNone(trend.rows, HasDate, TrendKey, k);
      }
    }
  }

  /** Every deduplicated order is "Under 30 days" exactly when it was updated
      fewer than 30 days before the run date; 30 days is "Over". */
  lemma AgeCategoryThreshold(today: CalendarDate, updated: CalendarDate)
    ensures Category(Threshold, today, updated) == Under <==> DaysBetween(today, updated) < 30
    ensures Category(Threshold, AddDays(updated, 30), updated) == Over
    ensures Category(Threshold, AddDays(updated, 29), updated) == Under
    ensures Label(Under, Threshold) == "Under 30 days" && Label(Over, Threshold) == "Over 30 days"
  {
    CategoryBoundary(Threshold, updated);
    ThresholdLabels();
  }

  lemma ThresholdLabels()
    ensures Label(Under, Threshold) == "Under 30 days" && Label(Over, Threshold) == "Over 30 days"
  {
    assert Decimal(Threshold) == "30";
  }

  /** The run aborts when the folder holds no CSV file of any trend date. */
  lemma RunNeedsTrendFiles(dir: seq<File>, dateText: string, trendTexts: seq<string>, today: CalendarDate, dates: seq<Stamp>)
    requires ReadFile(dir, SnapshotName(Prefix, dateText)).Ok?
    requires ParseTrendDates(trendTexts) == Ok(dates)
    requires LoadTrend(dir, dates).Ok?
    requires NoneSelected(dir, dates)
    ensures Run(dir, dateText, trendTexts, today) == Err(MissingColumn("COUNTRY"))
  {
    LoadTrendNoColumns(dir, dates);
  }
  /** A run on a folder that holds the current snapshot, with trend texts that
      parse, no CSV name that makes the scan raise and at least one selected
      file, yields the tables of the current rows and the trend frame. With no
      NaT among the trend dates, g3 counts every row of every selected file. */
  lemma RunYieldsTables(dir: seq<File>, dateText: string, trendTexts: seq<string>, today: CalendarDate, dates: seq<Stamp>)
    requires ReadFile(dir, SnapshotName(Prefix, dateText)).Ok?
    requires ParseTrendDates(trendTexts) == Ok(dates)
    requires LoadTrend(dir, dates).Ok?
    requires !NoneSelected(dir, dates)
    ensures Run(dir, dateText, trendTexts, today).Ok?
    ensures Run(dir, dateText, trendTexts, today)
      == Preprocess(ReadFile(dir, SnapshotName(Prefix, dateText)).value, LoadTrend(dir, dates).value, today)
    ensures NaT !in dates ==> Total(Run(dir, dateText, trendTexts, today).value.g3) == |SelectedRows(dir, dates)|
  {
    var current := ReadFile(dir, SnapshotName(Prefix, dateText)).value;
    var trend := LoadTrend(dir, dates).value;
    LoadTrendNoColumns(dir, dates);
    G3TotalIsTrendRows(current, trend, today);
    LoadTrendRows(dir, dates);
    if NaT !in dates {
      TrendRowsDated(dir, dates);
      assert |multiset(trend.rows)| == |trend.rows|;
    }
  }


  /** Two rows of one order updated on 1 and 5 March 2024 (the second with a
      time of day) leave one order, dated 5 March. */
  lemma LatestUpdateWins()
    ensures Clean([Row("A1", "FR", "SHIPPED", "01/03/2024"), Row("A1", "FR", "SHIPPED", "05/03/2024" + " 10:15")])
      == [Order("A1", "FR", "SHIPPED", Date(5, 3, 2024))]
  {
    MarchDates();
    var a := Order("A1", "FR", "SHIPPED", Date(1, 3, 2024));
    var b := Order("A1", "FR", "SHIPPED", Date(5, 3, 2024));
    ScenarioParse();
    ScenarioSort(a, b);
    ScenarioKeepLast(a, b);
  }

  lemma ScenarioParse()
    ensures Valid(Date(1, 3, 2024)) && Valid(Date(5, 3, 2024))
    ensures ParseUpdates([Row("A1", "FR", "SHIPPED", "01/03/2024"), Row("A1", "FR", "SHIPPED", "05/03/2024" + " 10:15")])
      == [Order("A1", "FR", "SHIPPED", Date(1, 3, 2024)), Order("A1", "FR", "SHIPPED", Date(5, 3, 2024))]
  {
    var early := Row("A1", "FR", "SHIPPED", "01/03/2024");
    var late := Row("A1", "FR", "SHIPPED", "05/03/2024" + " 10:15");
    ParseEarly(early);
    ParseLate(late);
    BothParse(early, late);
  }

  lemma BothParse(first: Row, second: Row)
    requires ParseRow(first).Some? && ParseRow(second).Some?
    ensures ParseUpdates([first, second]) == [ParseRow(first).value, ParseRow(second).value]
  {
    assert [first, second][..1] == [first];
  }

  lemma ParseEarly(row: Row)
    requires row.updateDate == "01/03/2024"
    ensures Valid(Date(1, 3, 2024))
    ensures ParseRow(row) == Some(Order(row.orderCode, row.country, row.status, Date(1, 3, 2024)))
  {
    MarchDates();
    var d: CalendarDate := Date(1, 3, 2024);
    UpdateDateOf([], d, []);
    assert row.updateDate == [] + FormatDate(d, '/') + [];
  }

  lemma ParseLate(row: Row)
    requires row.updateDate == "05/03/2024" + " 10:15"
    ensures Valid(Date(5, 3, 2024))
    ensures ParseRow(row) == Some(Order(row.orderCode, row.country, row.status, Date(5, 3, 2024)))
  {
    MarchDates();
    var d: CalendarDate := Date(5, 3, 2024);
    UpdateDateOf([], d, " 10:15");
    assert row.updateDate == [] + FormatDate(d, '/') + " 10:15";
  }

  lemma ScenarioSort(a: Order, b: Order)
    requires a.updated == Date(1, 3, 2024) && b.updated == Date(5, 3, 2024)
    ensures SortByDate([a, b]) == [a, b]
  {
    OrdinalOrder(a.updated, b.updated);
    assert [a, b][1..] == [b];
  }

  lemma ScenarioKeepLast(a: Order, b: Order)
    requires a.code == b.code
    ensures KeepLast([a, b]) == [b]
  {
    assert [a, b][1..] == [b];
    assert a.code in Codes([b]);
  }

  lemma MarchDates()
    ensures Valid(Date(1, 3, 2024)) && Valid(Date(5, 3, 2024))
    ensures FormatDate(Date(1, 3, 2024), '/') == "01/03/2024"
    ensures FormatDate(Date(5, 3, 2024), '/') == "05/03/2024"
  {
  }
}

=== FILE: records.dfy ===
/** The records the two scripts pass between their stages. */
module Records {
  import opened Calendar
  import opened DateText

  /** One row of a semicolon-separated snapshot, with the columns the core
      reads, as text: `ORDER CODE`, `COUNTRY`, `PMI ORDER STATUS` and
      `UPDATE DATE`. The not-exported script never reads the status column;
      its rows carry a status that nothing uses. */
  datatype Row = Row(orderCode: string, country: string, status: string, updateDate: string)

  /** A directory entry of the data folder with the rows `pd.read_csv` reads from it. */
  datatype File = File(name: string, rows: seq<Row>)

  /** A row of the trend frame: a snapshot row with its `Extraction Date`
      column, which is NaT for a file whose date suffix reads as NaT. */
  datatype TrendRow = TrendRow(row: Row, extractionDate: Stamp)

  /** A current-snapshot row whose `UPDATE DATE` parsed. */
  datatype Order = Order(code: string, country: string, status: string, updated: CalendarDate)
}

=== FILE: results.dfy ===
/** Failure-compatible wrappers used across the model: an optional value and
    the outcome of a pipeline stage, which either yields a value or carries the
    error that aborts the run. */
module Results {

  datatype Option<+T> = None | Some(value: T)

  /** The unhandled exceptions of the two scripts that this model reaches. */
  datatype Error =
    | FileNotFound(path: string)       // the current-date snapshot is not in the data folder
    | BadTrendDate(text: string)       // a trend-date literal that is neither dd-mm-yyyy nor NaT-like
    | BadFileDate(fileName: string)    // a .csv name whose date suffix is neither dd-mm-yyyy nor NaT-like
    | MissingColumn(column: string)    // grouping a trend frame that has no columns

  datatype Result<+T> = Ok(value: T) | Err(error: Error) {

    predicate IsFailure() {
      Err?
    }

    function PropagateFailure<U>(): Result<U>
      requires Err?
    {
      Err(error)
    }

    function Extract(): T
      requires Ok?
    {
      value
    }
  }
}

=== FILE: snapshots.dfy ===
/** `setup_paths`: the current snapshot is looked up by name, the trend dates
    are parsed, and every CSV in the data folder whose name carries one of the
    trend dates is read and tagged with that date. The folder is given as its
    listing, each entry with its rows. */
module Snapshots {
  import opened Results
  import opened Grouping
  import opened DateText
  import opened FileNames
  import opened Records

  /** The frame `setup_paths` builds by appending to `pd.DataFrame()`: with no
      file appended it has no columns at all. */
  datatype Combined = NoColumns | Frame(rows: seq<TrendRow>)

  function RowsOf(c: Combined): seq<TrendRow> {
    if c.NoColumns? then [] else c.rows
  }

  /** `pd.read_csv` of a path in the data folder: the rows of the entry with
      that name, or the error of a missing file. */
  function ReadFile(dir: seq<File>, name: string): (r: Result<seq<Row>>)
    ensures r.Err? <==> forall i :: 0 <= i < |dir| ==> dir[i].name != name
    ensures r.Err? ==> r.error == FileNotFound(name)
    ensures r.Ok? ==> exists i :: 0 <= i < |dir| && dir[i].name == name && dir[i].rows == r.value
  {
    if dir == [] then Err(FileNotFound(name))
    else if dir[0].name == name then Ok(dir[0].rows)
    else
      var r := ReadFile(dir[1..], name);
      assert forall i :: 1 <= i < |dir| ==> dir[i] == dir[1..][i - 1];
      r
  }

  /** `pd.to_datetime(specific_dates, format="%d-%m-%Y")`: a timestamp or NaT
      per text, in order, or the first text that makes pandas raise. */
  function ParseTrendDates(texts: seq<string>): (r: Result<seq<Stamp>>)
    ensures r.Ok? <==> forall i :: 0 <= i < |texts| ==> ToDatetime(texts[i], '-').Some?
    ensures r.Ok? ==> |r.value| == |texts|
    ensures r.Ok? ==> forall i :: 0 <= i < |texts| ==> ToDatetime(texts[i], '-') == Some(r.value[i])
    ensures r.Err? ==> exists i :: 0 <= i < |texts| && ToDatetime(texts[i], '-') == None && r.error == BadTrendDate(texts[i])
  {
    if texts == [] then Ok([])
    else
      match ToDatetime(texts[0], '-')
      case None => Err(BadTrendDate(texts[0]))
      case Some(d) =>
        var rest := ParseTrendDates(texts[1..]);
        assert forall i :: 1 <= i < |texts| ==> texts[i] == texts[1..][i - 1];
        if rest.Err? then Err(rest.error) else Ok([d] + rest.value)
  }

  /** A listed file is read into the trend frame: its name ends in ".csv" and
      carries one of the trend dates. */
  predicate Selected(f: File, dates: seq<Stamp>) {
    IsCsvName(f.name) && FileDate(f.name).Some? && FileDate(f.name).value in dates
  }

  /** A ".csv" name whose date suffix is neither a date nor NaT-like:
      `pd.to_datetime` raises on it. */
  predicate Unreadable(f: File) {
    IsCsvName(f.name) && FileDate(f.name).None?
  }

  /** `df["Extraction Date"] = extraction_date` */
  function Tag(rows: seq<Row>, d: Stamp): (r: seq<TrendRow>)
    ensures |r| == |rows|
    ensures forall i :: 0 <= i < |rows| ==> r[i] == TrendRow(rows[i], d)
  {
    if rows == [] then [] else [TrendRow(rows[0], d)] + Tag(rows[1..], d)
  }

  /** The sum of the row counts of the selected files. */
  function SelectedRowCount(files: seq<File>, dates: seq<Stamp>): nat {
    if files == [] then 0
    else (if Selected(files[0], dates) then |files[0].rows| else 0) + SelectedRowCount(files[1..], dates)
  }

  /** The loop over `os.listdir(data_folder)`: CSV files are dated by name,
      those whose date (or NaT) is among the trend dates are read, tagged and
      appended in listing order. The run aborts at a CSV name whose date text
      makes `pd.to_datetime` raise. */
  function LoadTrend(files: seq<File>, dates: seq<Stamp>): (r: Result<Combined>)
    ensures r.Ok? <==> forall i :: 0 <= i < |files| ==> !Unreadable(files[i])
    ensures r.Err? ==> exists i :: 0 <= i < |files| && Unreadable(files[i]) && r.error == BadFileDate(files[i].name)
  {
    if files == [] then Ok(NoColumns)
    else
      var f := files[0];
      assert forall i :: 1 <= i < |files| ==> files[i] == files[1..][i - 1];
      if !IsCsvName(f.name) then LoadTrend(files[1..], dates)
      else match FileDate(f.name)
        case None => Err(BadFileDate(f.name))
        case Some(d) =>
          var rest :- LoadTrend(files[1..], dates);
          if d in dates then Ok(Frame(Tag(f.rows, d) + RowsOf(rest))) else Ok(rest)
  }

  /** The trend rows of a listing: those of its first file when that file is
      selected, then those of the rest. */
  lemma LoadTrendStep(files: seq<File>, dates: seq<Stamp>)
    requires files != [] && LoadTrend(files, dates).Ok?
    ensures LoadTrend(files[1..], dates).Ok?
    ensures Selected(files[0], dates) ==> LoadTrend(files, dates).value.Frame?
    ensures !Selected(files[0], dates) ==> LoadTrend(files, dates) == LoadTrend(files[1..], dates)
    ensures RowsOf(LoadTrend(files, dates).value)
      == (if Selected(files[0], dates) then Tag(files[0].rows, FileDate(files[0].name).value) else [])
         + RowsOf(LoadTrend(files[1..], dates).value)
  {
    assert forall i :: 1 <= i < |files| ==> files[i] == files[1..][i - 1];
  }

  /** No listed file is selected for the trend frame. */
  predicate NoneSelected(files: seq<File>, dates: seq<Stamp>) {
    forall i :: 0 <= i < |files| ==> !Selected(files[i], dates)
  }

  lemma NoneSelectedCons(files: seq<File>, dates: seq<Stamp>)
    requires files != []
    ensures NoneSelected(files, dates) <==> !Selected(files[0], dates) && NoneSelected(files[1..], dates)
  {
    var tail := files[1..];
    if !Selected(files[0], dates) && NoneSelected(tail, dates) {
      forall i | 1 <= i < |files|
        ensures !Selected(files[i], dates)
      {
        assert files[i] == tail[i - 1];
      }
    }
    if NoneSelected(files, dates) {
      forall j | 0 <= j < |tail|
        ensures !Selected(tail[j], dates)
      {
        assert tail[j] == files[j + 1];
      }
    }
  }

  /** The trend frame lacks columns exactly when no file was selected. */
  lemma {:induction false} LoadTrendNoColumns(files: seq<File>, dates: seq<Stamp>)
    requires LoadTrend(files, dates).Ok?
    ensures LoadTrend(files, dates).value.NoColumns? <==> NoneSelected(files, dates)
  {
    if files != [] {
      LoadTrendStep(files, dates);
      LoadTrendNoColumns(files[1..], dates);
      NoneSelectedCons(files, dates);
    }
  }

  /** The trend frame has as many rows as the selected files together. */
  lemma {:induction false} LoadTrendSize(files: seq<File>, dates: seq<Stamp>)
    requires LoadTrend(files, dates).Ok?
    ensures |RowsOf(LoadTrend(files, dates).value)| == SelectedRowCount(files, dates)
  {
    if files != [] {
      LoadTrendStep(files, dates);
      LoadTrendSize(files[1..], dates);
    }
  }

  /** Every trend row comes from a selected file and carries that file's date. */
  lemma {:induction false} LoadTrendSound(files: seq<File>, dates: seq<Stamp>)
    requires LoadTrend(files, dates).Ok?
    ensures forall t :: t in RowsOf(LoadTrend(files, dates).value) ==>
      t.extractionDate in dates && SelectedSource(files, dates, t)
  {
    if files != [] {
      var tail := files[1..];
      LoadTrendStep(files, dates);
      LoadTrendSound(tail, dates);
      var rest := RowsOf(LoadTrend(tail, dates).value);
      forall t | t in RowsOf(LoadTrend(files, dates).value)
        ensures t.extractionDate in dates && SelectedSource(files, dates, t)
      {
        if t in rest {
          SourceShift(files, dates, t);
        } else {
          SourceHead(files, dates, t);
        }
      }
    }
  }

  lemma SourceShift(files: seq<File>, dates: seq<Stamp>, t: TrendRow)
    requires files != [] && SelectedSource(files[1..], dates, t)
    ensures SelectedSource(files, dates, t)
  {
    var tail := files[1..];
    var i :| 0 <= i < |tail| && Selected(tail[i], dates)
      && FileDate(tail[i].name) == Some(t.extractionDate) && t.row in tail[i].rows;
    var g := files[i + 1];
    assert g == tail[i];
    assert Selected(g, dates) && FileDate(g.name) == Some(t.extractionDate) && t.row in g.rows;
  }

  lemma SourceHead(files: seq<File>, dates: seq<Stamp>, t: TrendRow)
    requires files != [] && Selected(files[0], dates)
    requires t in Tag(files[0].rows, FileDate(files[0].name).value)
    ensures t.extractionDate in dates && SelectedSource(files, dates, t)
  {
    var f := files[0];
    var d := FileDate(f.name).value;
    var k :| 0 <= k < |Tag(f.rows, d)| && Tag(f.rows, d)[k] == t;
    assert t.row == f.rows[k];
  }

  /** Some selected file holds the row of t and is dated with t's extraction date. */
  ghost predicate SelectedSource(files: seq<File>, dates: seq<Stamp>, t: TrendRow) {
    exists i :: 0 <= i < |files| && Selected(files[i], dates)
      && FileDate(files[i].name) == Some(t.extractionDate) && t.row in files[i].rows
  }

  /** Every row of every selected file is in the trend frame, tagged with the
      file's date. */
  lemma {:induction false} LoadTrendComplete(files: seq<File>, dates: seq<Stamp>)
    requires LoadTrend(files, dates).Ok?
    ensures forall i, row :: 0 <= i < |files| && Selected(files[i], dates) && row in files[i].rows ==>
      TrendRow(row, FileDate(files[i].name).value) in RowsOf(LoadTrend(files, dates).value)
  {
    if files != [] {
      var f := files[0];
      var tail := files[1..];
      LoadTrendStep(files, dates);
      LoadTrendComplete(tail, dates);
      var all := RowsOf(LoadTrend(files, dates).value);
      var rest := RowsOf(LoadTrend(tail, dates).value);
      assert forall t :: t in rest ==> t in all;
      forall i, row | 0 <= i < |files| && Selected(files[i], dates) && row in files[i].rows
        ensures TrendRow(row, FileDate(files[i].name).value) in all
      {
        if i == 0 {
          var d := FileDate(f.name).value;
          var k :| 0 <= k < |f.rows| && f.rows[k] == row;
          assert Tag(f.rows, d)[k] == TrendRow(row, d);
        } else {
          assert files[i] == tail[i - 1];
        }
      }
    }
  }

  /** The rows of the selected files, each tagged with its file's date, as a
      multiset. */
  function SelectedRows(files: seq<File>, dates: seq<Stamp>): multiset<TrendRow> {
    if files == [] then multiset{}
    else
      (if Selected(files[0], dates) then multiset(Tag(files[0].rows, FileDate(files[0].name).value)) else multiset{})
      + SelectedRows(files[1..], dates)
  }

  /** The trend frame holds each tagged row of the selected files exactly as
      often as those files hold it. */
  lemma {:induction false} LoadTrendRows(files: seq<File>, dates: seq<Stamp>)
    requires LoadTrend(files, dates).Ok?
    ensures multiset(RowsOf(LoadTrend(files, dates).value)) == SelectedRows(files, dates)
  {
    if files != [] {
      LoadTrendStep(files, dates);
      LoadTrendRows(files[1..], dates);
    }
  }

  /** A CSV file dated NaT is skipped, not refused, when no trend text reads as NaT. */
  lemma NaTFileSkipped(f: File, dates: seq<Stamp>)
    requires IsCsvName(f.name) && IsNaTText(DateSuffix(f.name)) && NaT !in dates
    ensures !Selected(f, dates) && !Unreadable(f)
  {
  }

  predicate HasDate(t: TrendRow) {
    t.extractionDate.At?
  }

  /** With no NaT among the trend dates, every trend row carries a date. */
  lemma TrendRowsDated(files: seq<File>, dates: seq<Stamp>)
    requires LoadTrend(files, dates).Ok? && NaT !in dates
    ensures Where(RowsOf(LoadTrend(files, dates).value), HasDate) == RowsOf(LoadTrend(files, dates).value)
  {
    LoadTrendSound(files, dates);
    WhereAll(RowsOf(LoadTrend(files, dates).value), HasDate);
  }

  /** What `setup_paths` hands to the preprocessing stage. */
  datatype Loaded = Loaded(current: seq<Row>, trend: Combined)

  /** `setup_paths(date_str, specific_dates)` over a data folder whose
      snapshots are named `<prefix><dd-mm-yyyy>.csv`. Creating the output
      folder is left out. */
  function SetupPaths(prefix: string, dir: seq<File>, dateText: string, trendTexts: seq<string>): (r: Result<Loaded>)
    ensures r.Ok? ==> ReadFile(dir, SnapshotName(prefix, dateText)) == Ok(r.value.current)
    ensures ReadFile(dir, SnapshotName(prefix, dateText)).Err? ==> r == Err(FileNotFound(SnapshotName(prefix, dateText)))
    ensures r.Ok? ==> exists dates :: ParseTrendDates(trendTexts) == Ok(dates) && LoadTrend(dir, dates) == Ok(r.value.trend)
    ensures r.Ok? <==>
      (ReadFile(dir, SnapshotName(prefix, dateText)).Ok? && ParseTrendDates(trendTexts).Ok?
       && LoadTrend(dir, ParseTrendDates(trendTexts).value).Ok?)
    ensures ReadFile(dir, SnapshotName(prefix, dateText)).Ok? && ParseTrendDates(trendTexts).Err?
      ==> r == Err(ParseTrendDates(trendTexts).error)
    ensures ReadFile(dir, SnapshotName(prefix, dateText)).Ok? && ParseTrendDates(trendTexts).Ok?
      && LoadTrend(dir, ParseTrendDates(trendTexts).value).Err?
      ==> r == Err(LoadTrend(dir, ParseTrendDates(trendTexts).value).error)
  {
    var current :- ReadFile(dir, SnapshotName(prefix, dateText));
    var dates :- ParseTrendDates(trendTexts);
    var trend :- LoadTrend(dir, dates);
    Ok(Loaded(current, trend))
  }
}
